=== FILE: README.md ===
# bench-ai evaluation engine in Dafny

This project models the core of bench-ai, an evaluation engine for language
models. A run has these steps:

- It loads test cases from a YAML or JSON file.
- It keeps the cases of one use case (qa, summarization, codegen, sentiment, …).
- It calls the user's model once per case, in order.
- It scores every output with the validator registered for the case's use case.
- It collects one result per case.
- It summarises the results by mean score and pass rate.

A model that raises does not stop the run. Its case is recorded as a failing
result with score 0.0, and the exception text becomes the output. Two things
do abort the run: a use case without a validator, and a validator that raises.

Modules:

- `Types`: the `UseCase` enumeration with its fourteen string values, and the
  `TestCase`, `EvalResult` and `EvalSummary` records. Parsed YAML/JSON data is
  a `Value`.
- `QaMetric`, `CodegenMetric`, `SummarizationMetric`, `SentimentMetric`: the
  four validators. Each is a function of the output and the expected answer
  that returns a `(score, passed, feedback)` triple or raises. The QA validator
  also exists as a method with the loop over the candidate answers
  (benchai/metrics/qa.py:22-28), proved equal to its function.
- `Runner`: the dispatch table and the recursive specification `RunSpec` of a
  run. `RunSpec` gives what the run returns or raises and which prompts reach
  the model. The `Runner` class keeps the loop of `run`
  (benchai/runner.py:23-57) and is proved against `RunSpec`. The user's model is a `Model` object. Its reply may depend
  on every prompt it received before, and it logs its calls.
- `Loader`: `load_test_cases` over a file system given as a parameter. It
  covers the suffix rule, the list check, per-item construction and the
  index-tagged error. The loop over the items is `Collect`, stated for any way
  of building one item and used with `ParseItem`.
- `Suite`: the `EvalSuite` class: `run`, `summarize`, and the empty-result
  guards of `visualize` and `save`.
- `Utils`: `short`.
- `DemoModel`: the demonstration model's dispatch and its extractive
  summariser. Its regular expressions are written out as the searches they
  perform. The answer table is a parameter of `Respond` that defaults to the
  demo's own `QaResponses`, so the general lemmas hold for any table.
- `Text`, `Wrappers`, `Foreign`: shared pieces:
  - Python's `strip`, `lower`, `split`, `" ".join`, slicing and `int`/`str`
    conversions (`Text`);
  - `Option` and `Result` (`Wrappers`);
  - the record of foreign library functions the validators call (`Foreign`).

A Python `raise` is a `Failure` carrying `Exception(kind, message)`. A
`return` is a `Success`.

Several rows below are stated through reference definitions that have no row of
their own:
- `Text.Strip`, `Text.Words` and `Text.JoinSpace` are `str.strip()`,
  `str.split()` and `" ".join` (examples/model.py:51, :59 and :61);
- `QaMetric.BestMatch` is the best score and match of the loop at
  benchai/metrics/qa.py:22-28;
- `Runner.RunSpec` is `run` at benchai/runner.py:20-59;
- `Loader.Collect` is the loop at benchai/loader.py:28-40;
- `Loader.LoadSpec` is `load_test_cases` at benchai/loader.py:7-42.

## Model

| member | source | states |
|---|---|---|
| Types.ParseUseCase | benchai/types.py:11-25 | a string names a use case exactly when it is one of the fourteen values, and the member found carries that value |
| Types.UseCaseValueRoundTrip | benchai/types.py:11-25 | every member is found again from its string value |
| Types.UseCaseValuesDistinct | benchai/types.py:11-25 | two members with the same value are the same member |
| Types.UseCaseOf | benchai/types.py:11-25 | building a `UseCase` from any parsed value succeeds exactly for those fourteen strings; otherwise it raises ValueError "<repr> is not a valid UseCase" |
| Types.RecordDefaults | benchai/types.py:29-48 | `TestCase.id` defaults to None, `metadata` to an empty mapping, `EvalResult.feedback` to None |
| Text.StripIgnoresSurroundingSpace | benchai/metrics/codegen.py:14 | `strip()` of a text wrapped in whitespace equals `strip()` of the text |
| Text.StripRemovesOnlySpace | benchai/metrics/qa.py:8 | `strip()` returns an infix of its input with only whitespace before and after it |
| Text.StripUnchanged | benchai/metrics/codegen.py:14 | a string with no whitespace at either end strips to itself |
| Text.StripIdempotent | benchai/metrics/qa.py:8 | stripping twice is stripping once |
| Text.WordGaps | examples/model.py:59 | `split()` drops one whitespace run before each word and one after the last; the runs at either end may be empty, every run between two words is not |
| Text.WordsRebuild | examples/model.py:59 | the words, with the dropped runs put back around and between them, give the text again |
| Text.WordsOfJoin | examples/model.py:59-61 | `" ".join(words).split()` gives the words back when they are non-empty and free of whitespace |
| QaMetric.NormalizeAll | benchai/metrics/qa.py:12-13 | a list of answers is normalised element by element, in order; it raises AttributeError at the first element that is not a string |
| QaMetric.ScoreSpec | benchai/metrics/qa.py:7-33 | a result passes exactly when its score is at least 0.85; it raises exactly when a list answer is not a string; an expected value that is neither a string nor a list gives (0.0, False, "Invalid expected type for QA"); without an exact match the score is the best ratio, with feedback "Fuzzy match (~N%)" on a pass and "No strong match (best: '<first best answer>', score: …)" on a failure |
| QaMetric.Score | benchai/metrics/qa.py:7-33 | the validator with its candidate loop returns what `ScoreSpec` gives |
| QaMetric.BestCandidate | benchai/metrics/qa.py:22-28 | the loop over the candidates ends with the best score and match that `BestMatch` defines |
| QaMetric.BestMatchIsMaximum | benchai/metrics/qa.py:22-28 | the best score of the loop is at least 0.0 and at least every candidate's ratio |
| QaMetric.BestMatchIsFirstMaximum | benchai/metrics/qa.py:22-28 | a best score of 0.0 leaves the match empty; otherwise the match is the first candidate that reaches the best score |
| QaMetric.BestMatchInUnitInterval | benchai/metrics/qa.py:22-28 | with ratios in [0, 1] the best score is in [0, 1] |
| QaMetric.ScoreInUnitInterval | benchai/metrics/qa.py:7-33 | with ratios in [0, 1] every QA score is in [0, 1] |
| QaMetric.FuzzyBranch | benchai/metrics/qa.py:21-33 | without an exact match the score is at least every candidate's ratio and the result passes iff it reaches 0.85 |
| QaMetric.ExactMatchInList | benchai/metrics/qa.py:8-19 | an output whose stripped, lower-cased form equals that of any listed answer is (1.0, True, "Exact match"), whatever the ratio |
| QaMetric.NormalFormIgnoresSurroundingSpace | benchai/metrics/qa.py:8-11 | whitespace around an answer never changes its stripped, lower-cased form |
| QaMetric.NormalFormIgnoresCaseAndSpace | benchai/metrics/qa.py:8-11 | " Paris\n" and "paris" both have the stripped, lower-cased form "paris" |
| QaMetric.SameNormalFormIsExactMatch | benchai/metrics/qa.py:8-19 | an output equal to the expected string after strip and lower is an exact match, whatever the ratio |
| QaMetric.EmptyListScoresZero | benchai/metrics/qa.py:22-33 | an empty answer list gives score 0.0, a failure, and an empty best match |
| CodegenMetric.ScoreSpec | benchai/metrics/codegen.py:6-18 | text that does not parse gives (0.0, False, "Syntax error: …") before `expected` is read; otherwise it raises iff `expected` is not a string; scores are 0.0, 0.5 or 1.0; it passes iff the stripped texts are equal, which is iff the score is 1.0; a pass is (1.0, True, "Exact match") and a parsing text that fails is (0.5, False, "Valid syntax but differs from expected") |
| CodegenMetric.SurroundingSpaceIgnored | benchai/metrics/codegen.py:14 | leading and trailing whitespace on either side does not change the verdict |
| CodegenMetric.DifferentTextIsPartialCredit | benchai/metrics/codegen.py:14-16 | a program that parses but differs from the expected text after stripping earns (0.5, False, "Valid syntax but differs from expected") |
| CodegenMetric.AssignmentsDifferOnceStripped | benchai/metrics/codegen.py:14 | "x = 1" and "x=1" still differ once stripped: only surrounding whitespace is removed |
| CodegenMetric.InternalSpaceMatters | benchai/metrics/codegen.py:14-16 | when "x = 1" parses, it scores (0.5, False, "Valid syntax but differs from expected") against the expected text "x=1" |
| SummarizationMetric.ScoreSpec | benchai/metrics/summarization.py:10-20 | the score is the ROUGE-L F-measure of (reference, output); it passes iff the score is at least 0.4; the feedback is "ROUGE-L: " and the rendered score; it raises iff the reference is missing or not a string |
| SummarizationMetric.FirstElementOnly | benchai/metrics/summarization.py:11-12 | a list reference scores as its first element alone |
| SummarizationMetric.EmptyReferenceList | benchai/metrics/summarization.py:11-12 | an empty list reference raises IndexError |
| SummarizationMetric.ScoreInUnitInterval | benchai/metrics/summarization.py:14-20 | with an F-measure in [0, 1] the score is in [0, 1] |
| SentimentMetric.ScoreSpec | benchai/metrics/sentiment.py:6-15 | it passes iff the polarity distance is below 0.3; the score is 1 minus the distance, clamped at 0; it raises iff `expected` is not a string; the feedback is "Polarity diff: …, Expected: …, Got: …" with the difference and both polarities rendered to two decimals |
| SentimentMetric.ScoreBounds | benchai/metrics/sentiment.py:10-12 | the score is in [0, 1] and a pass always scores above 0.7 |
| SentimentMetric.Symmetric | benchai/metrics/sentiment.py:7-12 | swapping output and expected text changes neither score nor pass |
| SentimentMetric.EqualPolarities | benchai/metrics/sentiment.py:10-12 | equal polarities score 1.0 and pass |
| Runner.DispatchDomain | benchai/runner.py:8-14 | exactly qa, summarization, codegen and sentiment have a validator |
| Runner.Validate | benchai/runner.py:45 | calling the registered validator gives that validator's triple or exception |
| Runner.CaseOutcome | benchai/runner.py:25-57 | a result copies prompt, expected, use case and metadata from its case; a model exception gives score 0.0, not passed, the exception text as output and "Model error: …" as feedback |
| Runner.OutputIsScoredByRegisteredValidator | benchai/runner.py:40-57 | an output for a use case without a validator raises ValueError; otherwise the result carries exactly the validator's triple, or the validator's exception ends the run |
| Runner.RunIsOrderPreservingMap | benchai/runner.py:20-59 | a run that returns gives one result per case, in input order; result i is case i's outcome given the model's reply to it; the model was called once per case, in order |
| Runner.FirstFailureIsFirst | benchai/runner.py:23-57 | every case before `FirstFailure` has a result, and the case at that index (if any) raises |
| Runner.RunAbortsAtFirstFailure | benchai/runner.py:41-45 | a run raises iff some case's outcome is an exception; it then raises the first such case's exception, after calling the model for every case up to and including it |
| Runner.FailingModelNeverAborts | benchai/runner.py:25-38 | when every model call raises, the run returns one failing, zero-score result per case, even for use cases without a validator |
| Runner.Model.Call | benchai/runner.py:26 | one model call appends the prompt to the model's log and returns its reply given the earlier prompts |
| Runner.Runner.RunCase | benchai/runner.py:24-57 | one loop iteration calls the model once and gives exactly `CaseOutcome` of its reply |
| Runner.Runner.Run | benchai/runner.py:20-59 | the loop returns or raises what `RunSpec` gives, and the model receives exactly the prompts `RunSpec` lists |
| Loader.TrimTrailingSlashes | benchai/loader.py:8 | the trailing '/' characters are removed and nothing else: the result is a prefix of the path that does not end in '/', followed in the path only by '/' |
| Loader.Name | benchai/loader.py:8-14 | the last path component is the part of the path after its last '/' once the trailing '/' are removed; it contains no '/' |
| Loader.SuffixOf | benchai/loader.py:14-21 | the suffix of a name is empty exactly when the name has no dot or its last dot is its first or last character; otherwise it is the tail of the name from that last dot |
| Loader.Suffix | benchai/loader.py:14-22 | a suffix is empty, or a dot followed by at least one character and no further dot (which one is stated by `SuffixOf` and `Name`, which it composes) |
| Loader.FormatOf | benchai/loader.py:14-21 | exactly ".yaml", ".yml" and ".json" select a parser: ".yaml" and ".yml" select YAML, ".json" selects JSON |
| Loader.ParseItem | benchai/loader.py:30-37 | an item loads iff it is a mapping with `use_case`, `prompt` and `expected` whose use case is valid; the case then carries those values, with `id` None and `metadata` empty when absent |
| Loader.CollectIsOrderPreservingMap | benchai/loader.py:26-42 | for any way of building one item, the items load iff each one does, and then one case per item, in order |
| Loader.ParseItemsIsOrderPreservingMap | benchai/loader.py:26-42 | the items load iff each one builds a test case, and then one case per item, in order |
| Loader.FirstBad | benchai/loader.py:28-40 | the index returned has every item before it building and the item at it (if any) raising |
| Loader.CollectReportsFirstBad | benchai/loader.py:28-40 | for any way of building one item, the loop fails iff some item is bad, and then with the first bad index wrapped around that item's error |
| Loader.ParseItemsReportsFirstBadIndex | benchai/loader.py:28-40 | a load fails on its items iff some item is bad, and then raises ValueError "Invalid test case at index k: …" for the first bad item k, with that item's own error |
| Loader.CollectFailurePersists | benchai/loader.py:28-40 | once a prefix of the items fails, the whole loop fails the same way |
| Loader.LoadPreconditions | benchai/loader.py:7-24 | a missing file raises FileNotFoundError before its suffix is read; an unsupported suffix raises ValueError; a parser's error on an existing supported file is raised unchanged; data that is not a list raises ValueError "Test file must be a list of test cases."; a successful load had an existing file of a supported format that parsed to a list |
| Loader.SuffixOfNestedPath | benchai/loader.py:14 | the suffix of "tests/qa_tests.yaml" is ".yaml" |
| Loader.SuffixIgnoresTrailingSlash | benchai/loader.py:14 | the suffix of "tests/cases.json/" is ".json" |
| Loader.SuffixIsCaseSensitive | benchai/loader.py:14-21 | "tests/QA.YAML" is unsupported |
| Loader.DotFileHasNoSuffix | benchai/loader.py:14-21 | "tests/.yaml" has no suffix and is unsupported |
| Loader.ShapesNotChecked | benchai/loader.py:30-37 | an item whose prompt and expected answer are numbers still loads |
| Loader.LoadTestCases | benchai/loader.py:7-42 | the loader returns or raises what `LoadSpec` gives |
| Loader.BuildTestCases | benchai/loader.py:26-42 | the loop over the items returns the cases or raises the error that `ParseItems` gives |
| Suite.Select | benchai/suite.py:33 | the kept cases are exactly the cases of the use case, none added |
| Suite.SelectAppend | benchai/suite.py:33 | filtering distributes over concatenation, so relative order is kept |
| Suite.Aggregate | benchai/suite.py:53-65 | mean score times count is the score sum; pass rate times count is the number passed; the pass rate is in [0, 1] |
| Suite.AllPassedRateIsOne | benchai/suite.py:54-56 | when every result passed the pass rate is 1.0 |
| Suite.AverageWithinBounds | benchai/suite.py:53-55 | the mean score lies between any bounds on the individual scores |
| Suite.EvalSuite.constructor | benchai/suite.py:18-21 | a new suite has no results and no use case |
| Suite.EvalSuite.Run | benchai/suite.py:23-44 | an unknown use case raises ValueError and changes nothing; otherwise the use case is recorded first; a load error or an empty selection raises and keeps the old results; otherwise the results become what the runner returns on the selected cases, or stay when it raises |
| Suite.EvalSuite.Summarize | benchai/suite.py:46-65 | with no results it raises RuntimeError "Run `.run()` before summarizing."; otherwise it returns the mean score and pass rate of the stored results for the recorded use case |
| Suite.EvalSuite.Visualize | benchai/suite.py:67-71 | it raises RuntimeError "No results to visualize." exactly when there are no results |
| Suite.EvalSuite.Save | benchai/suite.py:73-83 | it raises RuntimeError "No results to save." exactly when there are no results; a failed write is not raised |
| Suite.ExactReplyCase | benchai/metrics/qa.py:17-19 | a QA case whose expected answer is the model's reply scores 1.0 and passes |
| Suite.ParisEndToEnd | benchai/suite.py:40-65 | a model answering "Paris" to one QA case expecting "Paris" gives mean score 1.0 and pass rate 1.0 |
| Utils.Short | benchai/utils.py:22-23 | a string within `max_len` (default 80) is returned unchanged; a longer one becomes a prefix of it followed by "..."; for `max_len` ≥ 3 the result has at most `max_len` characters, exactly `max_len` when cut; below 3 the cut drops `3 - max_len` characters from the end (none left when the string is that short) before adding "..." |
| Utils.ShortIdempotent | benchai/utils.py:23 | for `max_len` ≥ 3, shortening twice is shortening once |
| Utils.ShortBelowThree | benchai/utils.py:23 | for `max_len` = 2, "abc" becomes "ab...", which is longer than the limit and changes again when shortened |
| DemoModel.ExtractText | examples/model.py:47-51 | without "Summarize" in the prompt nothing is extracted; extracted text is stripped and shorter than the prompt |
| DemoModel.ColonFrom | examples/model.py:47 | the lazy gap of the pattern stops at the first ':' at or after a position, or there is none |
| DemoModel.TextAfter | examples/model.py:47-51 | the text after the colon at `j` is found iff some character follows it, and it is that rest of the prompt, stripped |
| DemoModel.NoColonAfterKey | examples/model.py:47-49 | for any keyword: when no ':' follows its first occurrence, the search finds nothing |
| DemoModel.FirstColonAfterKey | examples/model.py:47-51 | for any keyword: the extracted text is what follows the first ':' after its first occurrence, stripped, and nothing when that ':' ends the prompt |
| DemoModel.NoColonNoText | examples/model.py:47-49 | a prompt whose first "Summarize" has no ':' after it yields no text |
| DemoModel.ExtractsAfterFirstColon | examples/model.py:47-51 | otherwise the extracted text is the rest of the prompt after the first ':' that follows the first "Summarize", stripped; a prompt that ends at that ':' yields none |
| DemoModel.SplitSentences | examples/model.py:54 | the split has at least one piece, the first a prefix of the text; every piece but the last is non-empty and ends with '.', '!' or '?'; no piece contains a split point; every piece after a cut starts with a non-space or is empty (the whole whitespace run is dropped) |
| DemoModel.SentenceGaps | examples/model.py:54 | the split drops one gap between each two pieces, and each gap is non-empty and all whitespace |
| DemoModel.GapsAreWholeRuns | examples/model.py:54 | each dropped gap is a whole whitespace run: the piece before it ends with a mark and the piece after it starts with a non-space or is the empty end |
| DemoModel.SplitSentencesRebuilds | examples/model.py:54 | the pieces with the dropped whitespace runs put back between them give the text again |
| DemoModel.ChosenSentences | examples/model.py:55 | the kept sentences are a prefix of the split: the first `max_sentences` of them, or, for a negative limit, all but that many |
| DemoModel.CapWords | examples/model.py:59-63 | a text within `max_words` words is unchanged; for a non-negative `max_words` a longer one becomes exactly its first `max_words` words joined by single spaces, followed by "..." |
| DemoModel.CapWordsKeepsLeadingWords | examples/model.py:59-61 | a capped text splits back into exactly the first `max_words` words of the original |
| DemoModel.SummarizeText | examples/model.py:47-49 | without a "Summarize…:" match the reply is "Unable to extract text for summarization." |
| DemoModel.SummaryOfExtracted | examples/model.py:47-63 | once text is extracted, the reply is the chosen sentences of that text, joined with spaces and capped at `max_words` words |
| DemoModel.CapWordsShape | examples/model.py:58-63 | a capped text is the text itself within the cap, else its first `max_words` words joined by single spaces and followed by "...", and it splits back into those words |
| DemoModel.SummaryShape | examples/model.py:54-63 | a summary is the chosen sentences joined by spaces, kept whole within the word cap, else exactly its first `max_words` words joined by single spaces and followed by "..." |
| DemoModel.FindLimit | examples/model.py:98-99 | the search finds the leftmost position where a number followed by the phrase matches, or reports that there is none |
| DemoModel.LimitOr | examples/model.py:96-104 | without a match the default limit is kept; a matched limit is a natural number |
| DemoModel.Respond | examples/model.py:65-113 | it raises ValueError "Prompt must be a non-empty string." exactly for an empty or non-string prompt; a table hit on the stripped prompt returns the stored answer, ahead of any other rule; any other prompt not starting with "Summarize" gets the fallback reply |
| DemoModel.CapitalOfFranceIsParis | examples/model.py:10-11 | with the demo's own table, "What is the capital of France?" is answered "Paris" |
| DemoModel.DefaultLimits | examples/model.py:96-104 | when neither pattern matches, the limits stay 50 words and 2 sentences |
| DemoModel.SummarizeUsesDefaultLimits | examples/model.py:94-106 | a "Summarize" prompt that is not a table key and states no limits is summarised with 2 sentences and 50 words |
| DemoModel.StatedLimitOverrides | examples/model.py:98-104 | a stated limit replaces the default with the number at the leftmost match |
| DemoModel.SummarizePromptIsSummarised | examples/model.py:93-107 | a "Summarize" prompt that is not a table key is answered with the summary of its stripped text, with the sentence and word limits it states, each defaulting to 2 and 50 |
| DemoModel.StatedWordLimitReachesSummary | examples/model.py:96-107 | a word limit stated in such a prompt reaches the summariser as the number written at the leftmost match of "<digits> words or less" |
| DemoModel.EmptyPromptIsModelError | examples/model.py:78-80 | under the runner, an empty prompt becomes a failing, zero-score result with the ValueError's message as output |

## Left out

- Model adapters (OpenAI, REST, Hugging Face, llama.cpp) are not modelled. The user's model is a parameter that returns text or the text of an exception.
- The Streamlit UI, the command-line interface and the plot rendering of `visualize` are not modelled. They are presentation and I/O.
- Logging in the suite, the utilities and the demo model is not modelled.
- Reading and parsing the YAML or JSON file is not modelled. The file system is a parameter that says whether a path exists and what parsing it gives or raises. The JSON write of `save` is also not modelled.
- CodegenMetric.ScoreSpec: the syntax check is a boolean. `ast.parse` can also raise exceptions other than SyntaxError (for example ValueError on a NUL byte); the validator does not catch them, and the model does not represent them.
- The similarity ratio, the syntax check and its message, the ROUGE-L F-measure and the polarity are not modelled. They are fields of `Foreign.Library`, constrained only by their ranges in `Library.Valid()`. `fuzzy_score` in the utilities is not used by the core and is not modelled.
- Floating point is modelled as real numbers. Rendering a float with two decimals is the library field `fixed2`.
- Whitespace and case are ASCII only. `strip`, `split`, `lower`, `\s` and `\d` follow Python's behaviour on ASCII text, not on all of Unicode.
- Types.Repr: renders integers, booleans and None as Python does, and a string inside single quotes without Python's escaping or choice of quote. It writes floats, lists and mappings as fixed placeholders. The message of an invalid use case built from such values is therefore approximate.
- Mapping keys in parsed data are strings only.
- Loader.Suffix: does not normalise "." path components the way the path library does.
- Runner.NoValidatorError: renders the use case as "UseCase.NAME", which is how Python 3.11 and later format this enumeration inside an f-string.
- SentimentMetric.NotTextError, Loader.SubscriptError: the messages of exceptions raised inside Python and its libraries are approximations; their kinds are exact.

=== FILE: codegen.dfy ===
/**
 * The code-generation validator: a syntax gate, then equality of the
 * stripped texts, giving 1.0, 0.5 or 0.0.
 */
module CodegenMetric {

  import opened Wrappers
  import opened Text
  import opened Types
  import opened Foreign

  /** `CodegenValidator.score`. A syntax error short-circuits before `expected`
      is looked at; a non-string `expected` raises only when `actual` parses. */
  function ScoreSpec(lib: Library, actual: string, expected: Value): (r: Result<Verdict, Exception>)
    ensures !lib.parses(actual) ==> r == Success(Verdict(0.0, false, "Syntax error: " + lib.syntaxError(actual)))
    ensures r.Failure? <==> lib.parses(actual) && !expected.Str?
    ensures r.Success? ==> r.value.score in {0.0, 0.5, 1.0}
    ensures r.Success? ==> (r.value.passed <==> r.value.score == 1.0)
    ensures r.Success? && lib.parses(actual) ==>
              (r.value.passed <==> Strip(actual) == Strip(expected.s))
    ensures r.Success? && r.value.passed ==> r.value == Verdict(1.0, true, "Exact match")
    ensures r.Success? && lib.parses(actual) && !r.value.passed ==>
              r.value == Verdict(0.5, false, "Valid syntax but differs from expected")
  {
    if !lib.parses(actual) then
      Success(Verdict(0.0, false, "Syntax error: " + lib.syntaxError(actual)))
    else if !expected.Str? then
      Failure(Exception(AttributeError, "'" + TypeName(expected) + "' object has no attribute 'strip'"))
    else
      var passed := Strip(actual) == Strip(expected.s);
      Success(Verdict(if passed then 1.0 else 0.5, passed,
                      if passed then "Exact match" else "Valid syntax but differs from expected"))
  }

  /** Leading and trailing whitespace on either side never changes the verdict
      of a program that parses. */
  lemma SurroundingSpaceIgnored(lib: Library, actual: string, expected: string,
                                pre: string, post: string, pre': string, post': string)
    requires AllSpace(pre) && AllSpace(post) && AllSpace(pre') && AllSpace(post')
    requires lib.parses(actual) && lib.parses(pre + actual + post)
    ensures ScoreSpec(lib, pre + actual + post, Str(pre' + expected + post')) == ScoreSpec(lib, actual, Str(expected))
  {
    StripIgnoresSurroundingSpace(pre, actual, post);
    StripIgnoresSurroundingSpace(pre', expected, post');
  }

  /** A program that parses but differs from the expected text after stripping
      earns only the partial credit for parsing. */
  lemma DifferentTextIsPartialCredit(lib: Library, actual: string, expected: string)
    requires lib.parses(actual) && Strip(actual) != Strip(expected)
    ensures ScoreSpec(lib, actual, Str(expected)) == Success(Verdict(0.5, false, "Valid syntax but differs from expected"))
  {
  }

  /** Whitespace inside the text is compared: "x = 1" parses but scores only
      0.5 against "x=1". */
  lemma InternalSpaceMatters(lib: Library)
    requires lib.parses("x = 1")
    ensures ScoreSpec(lib, "x = 1", Str("x=1")) == Success(Verdict(0.5, false, "Valid syntax but differs from expected"))
  {
    AssignmentsDifferOnceStripped();
    DifferentTextIsPartialCredit(lib, "x = 1", "x=1");
  }

  lemma AssignmentsDifferOnceStripped()
    ensures Strip("x = 1") != Strip("x=1")
  {
    SpacedAssignmentStripped();
    TightAssignmentStripped();
    assert |"x = 1"| != |"x=1"|;
  }

  lemma SpacedAssignmentStripped()
    ensures Strip("x = 1") == "x = 1"
  {
    StripUnchanged("x = 1");
  }

  lemma TightAssignmentStripped()
    ensures Strip("x=1") == "x=1"
  {
    StripUnchanged("x=1");
  }
}

=== FILE: demo_model.dfy ===
/**
 * The demonstration model: canned answers for known questions, an extractive
 * summariser for "Summarize ...:" prompts, and a fixed reply otherwise. The
 * regular expressions it uses are written out as the searches they perform.
 */
module DemoModel {

  import opened Wrappers
  import opened Text
  import opened Types
  import Foreign
  import Runner

  // ---------------------------------------------------------------- extraction

  const Unextractable: string := "Unable to extract text for summarization."

  /** `re.search(r"Summarize.*?:\s*(.+)", prompt, re.DOTALL)`, then the group
      stripped. The match starts at the first "Summarize"; the lazy gap stops at
      the first ':' after it, and `.+` needs one character after that ':'. A
      later "Summarize" cannot succeed where the first one failed, since it sees
      only a subset of the same colons. */
  function ExtractText(prompt: string): (r: Option<string>)
    ensures (forall i :: !OccursAt(prompt, "Summarize", i)) ==> r.None?
    ensures r.Some? ==> r.value == Strip(r.value)
    ensures r.Some? ==> |r.value| < |prompt|
  {
    ExtractAfter(prompt, "Summarize", 0)
  }

  /** The same search for any keyword `key`, started at position `from`. */
  function ExtractAfter(prompt: string, key: string, from: nat): (r: Option<string>)
    ensures (forall i :: from <= i ==> !OccursAt(prompt, key, i)) ==> r.None?
    ensures r.Some? ==> r.value == Strip(r.value)
    ensures r.Some? ==> |r.value| < |prompt|
  {
    match Find(prompt, key, from)
    case None => None
    case Some(p) => AfterKey(prompt, key, p)
  }

  /** What the search yields once `key` is found at `p`: the text after the
      first ':' past the keyword, or nothing. */
  function AfterKey(prompt: string, key: string, p: nat): (r: Option<string>)
    ensures r.Some? ==> r.value == Strip(r.value) && |r.value| < |prompt|
  {
    match ColonFrom(prompt, p + |key|)
    case None => None
    case Some(j) => TextAfter(prompt, j)
  }

  /** The first ':' at or after `from`: where the lazy `.*?` gap stops. */
  function ColonFrom(prompt: string, from: nat): (r: Option<nat>)
    ensures r.Some? ==> from <= r.value < |prompt| && prompt[r.value] == ':'
    ensures r.Some? ==> forall k :: from <= k < r.value ==> prompt[k] != ':'
    ensures r.None? ==> forall k :: from <= k < |prompt| ==> prompt[k] != ':'
    decreases |prompt| - from
  {
    if from >= |prompt| then None
    else if prompt[from] == ':' then Some(from)
    else ColonFrom(prompt, from + 1)
  }

  /** `\s*(.+)` after the ':' at `j`, stripped; nothing when that ':' ends the
      prompt. */
  function TextAfter(prompt: string, j: nat): (r: Option<string>)
    ensures r.Some? <==> j + 1 < |prompt|
    ensures r.Some? ==> r.value == Strip(prompt[j + 1..]) && r.value == Strip(r.value)
    ensures r.Some? ==> |r.value| < |prompt|
  {
    if j + 1 < |prompt| then
      StripIdempotent(prompt[j + 1..]);
      Some(Strip(prompt[j + 1..]))
    else None
  }

  /** A prompt whose first `key` from `from` on (at `p`) is followed by no ':'
      yields no text. */
  lemma NoColonAfterKey(prompt: string, key: string, from: nat, p: nat)
    requires from <= p && OccursAt(prompt, key, p)
    requires forall i :: from <= i < p ==> !OccursAt(prompt, key, i)
    requires forall k :: p + |key| <= k < |prompt| ==> prompt[k] != ':'
    ensures ExtractAfter(prompt, key, from) == None
  {
    FindIsFirstOccurrence(prompt, key, from, p);
    KeyFound(prompt, key, from, p);
  }

  /** Otherwise the text is what follows the first ':' after that `key` (at
      `j`), stripped, and there is none when that ':' ends the prompt. */
  lemma FirstColonAfterKey(prompt: string, key: string, from: nat, p: nat, j: nat)
    requires from <= p && OccursAt(prompt, key, p)
    requires forall i :: from <= i < p ==> !OccursAt(prompt, key, i)
    requires p + |key| <= j < |prompt| && prompt[j] == ':'
    requires forall k :: p + |key| <= k < j ==> prompt[k] != ':'
    ensures ExtractAfter(prompt, key, from) == if j + 1 < |prompt| then Some(Strip(prompt[j + 1..])) else None
  {
    FindIsFirstOccurrence(prompt, key, from, p);
    KeyFound(prompt, key, from, p);
    ColonFound(prompt, key, p, j);
  }

  /** `ExtractAfter` once the keyword search has found `p`. */
  lemma KeyFound(prompt: string, key: string, from: nat, p: nat)
    requires Find(prompt, key, from) == Some(p)
    ensures ExtractAfter(prompt, key, from) == AfterKey(prompt, key, p)
  {
  }

  /** `AfterKey` once the colon search has found `j`. */
  lemma ColonFound(prompt: string, key: string, p: nat, j: nat)
    requires p + |key| <= j < |prompt| && prompt[j] == ':'
    requires forall k :: p + |key| <= k < j ==> prompt[k] != ':'
    ensures AfterKey(prompt, key, p) == TextAfter(prompt, j)
  {
    assert ColonFrom(prompt, p + |key|) == Some(j);
  }

  /** A prompt whose first "Summarize" (at `p`) is followed by no ':' yields no text. */
  lemma NoColonNoText(prompt: string, p: nat)
    requires OccursAt(prompt, "Summarize", p)
    requires forall i :: 0 <= i < p ==> !OccursAt(prompt, "Summarize", i)
    requires forall k :: p + 9 <= k < |prompt| ==> prompt[k] != ':'
    ensures ExtractText(prompt) == None
  {
    NoColonAfterKey(prompt, "Summarize", 0, p);
  }

  /** Otherwise the text is what follows the first ':' after that "Summarize"
      (at `j`), stripped, and there is none when that ':' ends the prompt. */
  lemma ExtractsAfterFirstColon(prompt: string, p: nat, j: nat)
    requires OccursAt(prompt, "Summarize", p)
    requires forall i :: 0 <= i < p ==> !OccursAt(prompt, "Summarize", i)
    requires p + 9 <= j < |prompt| && prompt[j] == ':'
    requires forall k :: p + 9 <= k < j ==> prompt[k] != ':'
    ensures ExtractText(prompt) == if j + 1 < |prompt| then Some(Strip(prompt[j + 1..])) else None
  {
    FirstColonAfterKey(prompt, "Summarize", 0, p, j);
  }

  // ---------------------------------------------------------------- sentences

  predicate IsTerminator(c: char) {
    c == '.' || c == '!' || c == '?'
  }

  /** `(?<=[.!?])\s+` can start matching at `i`. */
  predicate BreakAt(t: string, i: int) {
    0 < i < |t| && IsTerminator(t[i - 1]) && IsSpace(t[i])
  }

  /** The first break at or after `from`. */
  function FirstBreak(t: string, from: nat): (r: Option<nat>)
    ensures r.Some? ==> from <= r.value && BreakAt(t, r.value)
    ensures r.Some? ==> forall i :: from <= i < r.value ==> !BreakAt(t, i)
    ensures r.None? ==> forall i :: from <= i ==> !BreakAt(t, i)
    decreases |t| - from
  {
    if from >= |t| then None
    else if BreakAt(t, from) then Some(from)
    else FirstBreak(t, from + 1)
  }

  /** The end of the whitespace run that starts at `i`, the first index at or
      after `i` that is not whitespace (`\s+` and `\s*` are greedy). */
  function SpaceRunEnd(t: string, i: nat): (j: nat)
    requires i <= |t|
    ensures i <= j <= |t| && AllSpace(t[i..j])
    ensures j == |t| || !IsSpace(t[j])
    decreases |t| - i
  {
    if i < |t| && IsSpace(t[i]) then
      var j := SpaceRunEnd(t, i + 1);
      assert t[i..j] == [t[i]] + t[i + 1..j];
      j
    else i
  }

  /** `re.split(r"(?<=[.!?])\s+", t)`: cut at every whitespace run that follows
      '.', '!' or '?', dropping the run. Each piece but the last ends with one
      of those marks, no piece contains a cut point, and every piece after a cut
      starts past the whole run (it is empty only at the end of the text). */
  function SplitSentences(t: string): (r: seq<string>)
    ensures |r| >= 1 && r[0] <= t
    ensures forall k :: 1 <= k < |r| ==> r[k] == [] || !IsSpace(r[k][0])
    ensures forall k :: 0 <= k < |r| - 1 ==> r[k] != [] && IsTerminator(r[k][|r[k]| - 1])
    ensures forall k, i :: 0 <= k < |r| ==> !BreakAt(r[k], i)
    decreases |t|
  {
    match FirstBreak(t, 1)
    case None =>
      assert forall i :: !BreakAt(t, i) by {
        forall i ensures !BreakAt(t, i) {
          if 0 < i { assert 1 <= i; }
        }
      }
      [t]
    case Some(b) =>
      var head := t[..b];
      assert forall i :: !BreakAt(head, i) by {
        forall i ensures !BreakAt(head, i) {
          if 0 < i < |head| {
            assert 1 <= i < b;
            assert !BreakAt(t, i);
            assert head[i - 1] == t[i - 1] && head[i] == t[i];
          }
        }
      }
      var e := SpaceRunEnd(t, b);
      var rest := SplitSentences(t[e..]);
      assert rest[0] == [] || rest[0][0] == t[e];
      [head] + rest
  }

  /** The whitespace runs that `SplitSentences` drops, in order: one between
      each two neighbouring pieces, never empty and nothing but whitespace. */
  function SentenceGaps(t: string): (g: seq<string>)
    ensures |g| == |SplitSentences(t)| - 1
    ensures forall k :: 0 <= k < |g| ==> g[k] != [] && AllSpace(g[k])
    decreases |t|
  {
    match FirstBreak(t, 1)
    case None => []
    case Some(b) =>
      var e := SpaceRunEnd(t, b);
      [t[b..e]] + SentenceGaps(t[e..])
  }

  /** Each dropped gap is a whole whitespace run, as the greedy `\s+` takes it:
      the piece before it ends with a mark, which is not whitespace, and the
      piece after it starts with a non-space or is the empty end of the text. */
  lemma GapsAreWholeRuns(t: string, k: nat)
    requires k < |SentenceGaps(t)|
    ensures var r := SplitSentences(t);
      && r[k] != [] && !IsSpace(r[k][|r[k]| - 1]) && IsTerminator(r[k][|r[k]| - 1])
      && (r[k + 1] == [] || !IsSpace(r[k + 1][0]))
  {
  }

  /** The pieces with the gaps put back between them. */
  function Interleave(pieces: seq<string>, gaps: seq<string>): string
    requires |pieces| >= 1 && |gaps| == |pieces| - 1
    decreases |gaps|
  {
    if gaps == [] then pieces[0] else pieces[0] + gaps[0] + Interleave(pieces[1..], gaps[1..])
  }

  /** Splitting loses only the whitespace runs it cuts at: the pieces, with
      those runs put back between them, are the text again. */
  lemma {:induction false} SplitSentencesRebuilds(t: string)
    ensures Interleave(SplitSentences(t), SentenceGaps(t)) == t
    decreases |t|
  {
    match FirstBreak(t, 1)
    case None =>
    case Some(b) =>
      var e := SpaceRunEnd(t, b);
      SplitSentencesRebuilds(t[e..]);
      assert SplitSentences(t) == [t[..b]] + SplitSentences(t[e..]);
      assert SentenceGaps(t) == [t[b..e]] + SentenceGaps(t[e..]);
      assert t == t[..b] + t[b..e] + t[e..];
  }

  /** `sentences[:min(max_sentences, len(sentences))]`: the sentences kept are a
      prefix of the split, the first `max_sentences` of them; a negative limit
      is a Python slice from the end and drops that many instead. */
  function ChosenSentences(text: string, maxSentences: int): (r: seq<string>)
    ensures r <= SplitSentences(text)
    ensures maxSentences >= 0 ==> |r| == Min(maxSentences, |SplitSentences(text)|)
    ensures maxSentences < 0 ==> |r| == Max(0, |SplitSentences(text)| + maxSentences)
  {
    var sentences := SplitSentences(text);
    PyPrefix(sentences, Min(maxSentences, |sentences|))
  }

  // ---------------------------------------------------------------- word cap

  /** The word cap: more than `max_words` words become the first `max_words`
      joined by single spaces, followed by "..."; otherwise the text stays. */
  function CapWords(summary: string, maxWords: int): (r: string)
    ensures |Words(summary)| <= maxWords ==> r == summary
    ensures |Words(summary)| > maxWords ==> |r| >= 3 && r[|r| - 3..] == "..."
    ensures 0 <= maxWords < |Words(summary)| ==> r == JoinSpace(Words(summary)[..maxWords]) + "..."
  {
    var words := Words(summary);
    if |words| > maxWords then JoinSpace(PyPrefix(words, maxWords)) + "..." else summary
  }

  /** A capped summary splits back into exactly the first `max_words` words of
      the text, in order. */
  lemma CapWordsKeepsLeadingWords(summary: string, maxWords: int)
    requires 0 <= maxWords < |Words(summary)|
    ensures var r := CapWords(summary, maxWords);
      Words(r[..|r| - 3]) == Words(summary)[..maxWords]
  {
    var words := Words(summary);
    var kept := PyPrefix(words, maxWords);
    assert kept == words[..maxWords];
    WordsOfJoin(kept);
    var r := CapWords(summary, maxWords);
    assert r[..|r| - 3] == JoinSpace(kept);
  }

  /** `summarize_text(prompt, max_sentences=2, max_words=50)`. */
  function SummarizeText(prompt: string, maxSentences: int := 2, maxWords: int := 50): (r: string)
    ensures ExtractText(prompt).None? ==> r == Unextractable
  {
    match ExtractText(prompt)
    case None => Unextractable
    case Some(text) => CapWords(JoinSpace(ChosenSentences(text, maxSentences)), maxWords)
  }

  /** A summary of extracted text is the chosen sentences joined by single
      spaces, kept whole within the word cap and otherwise cut to its first
      `max_words` words followed by "...". */
  lemma SummaryShape(prompt: string, text: string, maxSentences: int, maxWords: int)
    requires ExtractText(prompt) == Some(text)
    ensures var joined := JoinSpace(ChosenSentences(text, maxSentences));
      var r := SummarizeText(prompt, maxSentences, maxWords);
      && (|Words(joined)| <= maxWords ==> r == joined)
      && (0 <= maxWords < |Words(joined)| ==>
            && r == JoinSpace(Words(joined)[..maxWords]) + "..."
            && Words(r[..|r| - 3]) == Words(joined)[..maxWords])
  {
    SummaryOfExtracted(prompt, text, maxSentences, maxWords);
    CapWordsShape(JoinSpace(ChosenSentences(text, maxSentences)), maxWords);
  }

  /** The word cap keeps a short text whole and cuts a long one to its first
      `max_words` words followed by "...". */
  lemma CapWordsShape(summary: string, maxWords: int)
    ensures var r := CapWords(summary, maxWords);
      && (|Words(summary)| <= maxWords ==> r == summary)
      && (0 <= maxWords < |Words(summary)| ==>
            && r == JoinSpace(Words(summary)[..maxWords]) + "..."
            && Words(r[..|r| - 3]) == Words(summary)[..maxWords])
  {
    if 0 <= maxWords < |Words(summary)| {
      CapWordsKeepsLeadingWords(summary, maxWords);
    }
  }

  /** The summary once the text has been extracted. */
  lemma SummaryOfExtracted(prompt: string, text: string, maxSentences: int, maxWords: int)
    requires ExtractText(prompt) == Some(text)
    ensures SummarizeText(prompt, maxSentences, maxWords) == CapWords(JoinSpace(ChosenSentences(text, maxSentences)), maxWords)
  {
  }

  // ---------------------------------------------------------------- limits

  /** `\s*w0\s*w1...` matches at `i`: each literal preceded by optional space. */
  predicate PhraseAt(t: string, i: nat, phrase: seq<string>)
    requires i <= |t|
    decreases |phrase|
  {
    phrase == [] ||
      var j := SpaceRunEnd(t, i);
      OccursAt(t, phrase[0], j) && PhraseAt(t, j + |phrase[0]|, phrase[1..])
  }

  /** The end of the digit run that starts at `i` (`\d+` is greedy). */
  function DigitRunEnd(t: string, i: nat): (j: nat)
    requires i <= |t|
    ensures i <= j <= |t| && forall k :: i <= k < j ==> IsDigit(t[k])
    ensures j == |t| || !IsDigit(t[j])
    decreases |t| - i
  {
    if i < |t| && IsDigit(t[i]) then DigitRunEnd(t, i + 1) else i
  }

  /** `int(...)` of the digit run that starts at `i`. */
  function NumberAt(t: string, i: nat): nat
    requires i <= |t|
  {
    DigitsValue(t[i..DigitRunEnd(t, i)])
  }

  /** `(\d+)` followed by `phrase` matches at `i`. */
  predicate LimitAt(t: string, phrase: seq<string>, i: nat) {
    i < |t| && IsDigit(t[i]) && PhraseAt(t, DigitRunEnd(t, i), phrase)
  }

  /** `re.search` for a number followed by `phrase`: the leftmost start. */
  function FindLimit(t: string, phrase: seq<string>, from: nat): (r: Option<nat>)
    ensures r.Some? ==> from <= r.value && LimitAt(t, phrase, r.value)
    ensures r.Some? ==> forall k :: from <= k < r.value ==> !LimitAt(t, phrase, k)
    ensures r.None? ==> forall k :: from <= k ==> !LimitAt(t, phrase, k)
    decreases |t| - from
  {
    if from >= |t| then None
    else if LimitAt(t, phrase, from) then Some(from)
    else FindLimit(t, phrase, from + 1)
  }

  /** `int(match.group(1))` of the search, or the default when it finds nothing. */
  function LimitOr(t: string, phrase: seq<string>, default: int): (n: int)
    ensures (forall k :: !LimitAt(t, phrase, k)) ==> n == default
    ensures (exists k :: LimitAt(t, phrase, k)) ==> n >= 0
  {
    match FindLimit(t, phrase, 0)
    case None => default
    case Some(i) => NumberAt(t, i)
  }

  const WordLimitPhrase: seq<string> := ["words", "or", "less"]
  const SentenceLimitPhrase: seq<string> := ["sentences"]
  const DefaultMaxWords: int := 50
  const DefaultMaxSentences: int := 2

  // ---------------------------------------------------------------- dispatch

  const Fallback: string := "This is a dummy response for an unrecognized prompt."
  const InvalidPrompt: Exception := Exception(ValueError, "Prompt must be a non-empty string.")

  /** The canned answers, keyed by the stripped question. */
  const QaResponses: map<string, string> := map[
    "What is the capital of France?" := "Paris",
    "Who wrote the novel '1984'?" := "George Orwell",
    "What is the primary source of energy for Earth's climate system?" := "The Sun",
    "If a train leaves Station A at 9 AM traveling at 60 mph and another train leaves Station B at 10 AM traveling at 80 mph in the opposite direction, when will they meet if the stations are 200 miles apart?" := "11 AM",
    "Why did the Roman Empire decline? Provide a concise explanation." := "The Roman Empire declined due to economic instability, political corruption, barbarian invasions, and overexpansion.",
    "What is the smell of rain like?" := "The smell of rain is fresh, earthy, and musky, caused by petrichor from wet soil.",
    "In the context of graph theory, what is a Hamiltonian cycle?" := "A Hamiltonian cycle is a cycle in a graph that visits each vertex exactly once and returns to the starting vertex.",
    "What is the capital of the country with the largest population?" := "Beijing",
    "Who is the current CEO of Tesla as of June 2025?" := "Elon Musk",
    "If you were a chef, how would you improve a classic Margherita pizza?" := "I\U{2019}d use heirloom tomatoes, add burrata, and finish with fresh basil and olive oil.",
    "What is the smell of rain like in the Sahara Desert?" := "In the Sahara, rain smells dusty and earthy due to petrichor from dry sand.",
    "Is the Earth flat?" := "No, the Earth is an oblate spheroid, as shown by satellite imagery and GPS.",
    "What is the capital of Florida, Italy?" := "There is no Florida in Italy; perhaps you meant Florence, the capital of Tuscany?",
    "\U{BF}Cu\U{E1}l es la capital de Espa\U{F1}a?" := "Madrid",
    "What caused the 2008 financial crisis?" := "The 2008 financial crisis was caused by a housing bubble, subprime mortgages, and risky derivatives.",
    "What is the smell of rain like on Mars?" := "Mars has no rain, so there\U{2019}s no petrichor-like smell; only dust or CO2 ice.",
    "Who won the Nobel Peace Prize in 2024?" := "Nihon Hidankyo, for their work against nuclear weapons.",
    "If all roses are flowers, and some flowers are red, are all roses red?" := "No, not all roses are red; roses can be other colors like white or yellow.",
    "What is the primary ingredient in traditional Japanese miso soup?" := "Miso paste",
    "What would happen if the Moon disappeared tomorrow?" := "Tides would weaken, nights would be darker, and Earth\U{2019}s axial tilt might destabilize."
  ]

  /** `model(prompt)` answering from the table `responses`: anything but a
      non-empty string raises ValueError; the stripped prompt is looked up
      first, then "Summarize" prompts are summarised with the limits they state
      (50 words and 2 sentences when they state none), and anything else gets
      the fallback reply. */
  function Respond(prompt: Value, responses: map<string, string> := QaResponses): (r: Result<string, Exception>)
    ensures r.Failure? <==> !prompt.Str? || prompt.s == []
    ensures r.Failure? ==> r.error == InvalidPrompt
    ensures r.Success? && Strip(prompt.s) in responses ==> r.value == responses[Strip(prompt.s)]
    ensures r.Success? && Strip(prompt.s) !in responses && !("Summarize" <= Strip(prompt.s)) ==> r.value == Fallback
  {
    if !prompt.Str? || prompt.s == [] then Failure(InvalidPrompt)
    else
      var t := Strip(prompt.s);
      if t in responses then Success(responses[t])
      else if "Summarize" <= t then
        var maxWords := LimitOr(t, WordLimitPhrase, DefaultMaxWords);
        var maxSentences := LimitOr(t, SentenceLimitPhrase, DefaultMaxSentences);
        Success(SummarizeText(t, maxSentences, maxWords))
      else Success(Fallback)
  }

  const CapitalOfFrance: string := "What is the capital of France?"

  lemma CapitalOfFranceIsStripped()
    ensures Strip(CapitalOfFrance) == CapitalOfFrance
  {
    var q := CapitalOfFrance;
    assert q[0] == 'W' && q[|q| - 1] == '?';
    StripUnchanged(q);
  }

  lemma CapitalOfFranceInTable()
    ensures CapitalOfFrance in QaResponses && QaResponses[CapitalOfFrance] == "Paris"
  {
  }

  /** The demo's own table answers its first question. */
  lemma CapitalOfFranceIsParis()
    ensures Respond(Str(CapitalOfFrance)) == Success("Paris")
  {
    CapitalOfFranceIsStripped();
    CapitalOfFranceInTable();
  }

  /** Without a stated limit the search finds nothing and the defaults stay. */
  lemma DefaultLimits(t: string)
    requires forall k :: !LimitAt(t, WordLimitPhrase, k)
    requires forall k :: !LimitAt(t, SentenceLimitPhrase, k)
    ensures LimitOr(t, WordLimitPhrase, DefaultMaxWords) == 50
    ensures LimitOr(t, SentenceLimitPhrase, DefaultMaxSentences) == 2
  {
    assert FindLimit(t, WordLimitPhrase, 0).None?;
    assert FindLimit(t, SentenceLimitPhrase, 0).None?;
  }

  /** A "Summarize" prompt that is not a table key is summarised, from its
      stripped text, with the limits that text states, each falling back to
      its default. */
  lemma SummarizePromptIsSummarised(prompt: string, responses: map<string, string>)
    requires prompt != [] && Strip(prompt) !in responses && "Summarize" <= Strip(prompt)
    ensures var t := Strip(prompt);
      Respond(Str(prompt), responses)
        == Success(SummarizeText(t, LimitOr(t, SentenceLimitPhrase, DefaultMaxSentences),
                                    LimitOr(t, WordLimitPhrase, DefaultMaxWords)))
  {
  }

  /** A word limit the prompt states replaces the default of 50: the leftmost
      "<n> words" sets the cap the summariser gets. */
  lemma StatedWordLimitReachesSummary(prompt: string, responses: map<string, string>, i: nat)
    requires prompt != [] && Strip(prompt) !in responses && "Summarize" <= Strip(prompt)
    requires LimitAt(Strip(prompt), WordLimitPhrase, i)
    requires forall k :: 0 <= k < i ==> !LimitAt(Strip(prompt), WordLimitPhrase, k)
    ensures var t := Strip(prompt);
      Respond(Str(prompt), responses)
        == Success(SummarizeText(t, LimitOr(t, SentenceLimitPhrase, DefaultMaxSentences),
                                    NumberAt(t, i)))
  {
    StatedLimitOverrides(Strip(prompt), WordLimitPhrase, DefaultMaxWords, i);
    SummarizePromptIsSummarised(prompt, responses);
  }

  /** A "Summarize" prompt that is not a table key and states no limits is
      summarised with at most 2 sentences and 50 words. */
  lemma SummarizeUsesDefaultLimits(prompt: string, responses: map<string, string>)
    requires prompt != [] && Strip(prompt) !in responses && "Summarize" <= Strip(prompt)
    requires forall k :: !LimitAt(Strip(prompt), WordLimitPhrase, k)
    requires forall k :: !LimitAt(Strip(prompt), SentenceLimitPhrase, k)
    ensures Respond(Str(prompt), responses) == Success(SummarizeText(Strip(prompt), 2, 50))
  {
    DefaultLimits(Strip(prompt));
    SummarizePromptIsSummarised(prompt, responses);
  }

  /** A stated limit overrides the default with the number written before the
      phrase, taken from the leftmost place where the pattern matches. */
  lemma StatedLimitOverrides(t: string, phrase: seq<string>, default: int, i: nat)
    requires LimitAt(t, phrase, i)
    requires forall k :: 0 <= k < i ==> !LimitAt(t, phrase, k)
    ensures LimitOr(t, phrase, default) == NumberAt(t, i)
  {
    assert FindLimit(t, phrase, 0) == Some(i);
  }

  // ---------------------------------------------------------------- as a runner's model

  /** The demo model as the runner calls it: it ignores earlier prompts, and a
      raised exception reaches the runner as its message. */
  function AsRespond(responses: map<string, string> := QaResponses): Runner.Respond {
    (history: seq<Value>, prompt: Value) =>
      match Respond(prompt, responses)
      case Success(s) => Success(s)
      case Failure(e) => Failure(e.message)
  }

  /** An empty prompt does not stop a run: its case is recorded as a model
      error with score 0.0, and the error text is the model's message. */
  lemma EmptyPromptIsModelError(lib: Foreign.Library, responses: map<string, string>, history: seq<Value>, c: TestCase)
    requires c.prompt == Str("")
    ensures var r := Runner.CaseOutcome(lib, c, AsRespond(responses)(history, c.prompt));
      && r.Success?
      && r.value.actual == InvalidPrompt.message
      && r.value.score == 0.0 && !r.value.passed
      && r.value.feedback == Some("Model error: " + InvalidPrompt.message)
  {
    assert Respond(c.prompt, responses) == Failure(InvalidPrompt);
  }
}

=== FILE: foreign.dfy ===
/**
 * The third-party pieces the validators call, taken as parameters: the
 * engine's code never looks inside them.
 */
module Foreign {

  /**
   * - `ratio(a, b)`: difflib's `SequenceMatcher(None, a, b).ratio()`;
   * - `parses(s)`: `ast.parse(s)` returns without a `SyntaxError`;
   * - `syntaxError(s)`: `str(e)` of the `SyntaxError` raised for `s`;
   * - `rougeL(target, prediction)`: the stemmed ROUGE-L F-measure;
   * - `polarity(s)`: TextBlob's sentiment polarity of `s`;
   * - `fixed2(x)`: `f"{x:.2f}"`.
   */
  datatype Library = Library(
    ratio: (string, string) -> real,
    parses: string -> bool,
    syntaxError: string -> string,
    rougeL: (string, string) -> real,
    polarity: string -> real,
    fixed2: real -> string)
  {
    /** The documented ranges of the three estimators. */
    ghost predicate Valid() {
      && (forall a, b :: 0.0 <= ratio(a, b) <= 1.0)
      && (forall a, b :: 0.0 <= rougeL(a, b) <= 1.0)
      && (forall s :: -1.0 <= polarity(s) <= 1.0)
    }
  }
}

=== FILE: loader.dfy ===
/**
 * Loading test cases: the file must exist and have a YAML or JSON suffix, its
 * parsed content must be a list, and every item must name a valid use case and
 * carry a prompt and an expected answer; the first bad item is reported by index.
 */
module Loader {

  import opened Wrappers
  import opened Text
  import opened Types

  datatype Format = Yaml | Json

  /** The file system as the loader sees it: whether a path exists, and what
      opening it and parsing it in a format gives or raises. */
  datatype FileSystem = FileSystem(
    exists_: string -> bool,
    read: (string, Format) -> Result<Value, Exception>)

  // ---------------------------------------------------------------- suffix

  function LastIndexOf(s: string, c: char): (r: Option<nat>)
    ensures r.Some? ==> r.value < |s| && s[r.value] == c && forall j :: r.value < j < |s| ==> s[j] != c
    ensures r.None? ==> forall j :: 0 <= j < |s| ==> s[j] != c
  {
    if s == [] then None
    else if s[|s| - 1] == c then Some(|s| - 1)
    else LastIndexOf(s[..|s| - 1], c)
  }

  /** The path without its trailing '/' characters. */
  function TrimTrailingSlashes(p: string): (r: string)
    ensures r <= p && (r == [] || r[|r| - 1] != '/')
    ensures forall k :: |r| <= k < |p| ==> p[k] == '/'
  {
    if p != [] && p[|p| - 1] == '/' then TrimTrailingSlashes(p[..|p| - 1]) else p
  }

  /** The final component of a path (`Path(p).name`): what follows the last
      '/' once the trailing ones are removed. */
  function Name(path: string): (name: string)
    ensures forall j :: 0 <= j < |name| ==> name[j] != '/'
    ensures var p := TrimTrailingSlashes(path);
      && |name| <= |p| && name == p[|p| - |name|..]
      && (|name| == |p| || p[|p| - |name| - 1] == '/')
  {
    var p := TrimTrailingSlashes(path);
    match LastIndexOf(p, '/')
    case None => p
    case Some(i) => p[i + 1..]
  }

  /** `Path(p).suffix`, the suffix of the path's final component. */
  function Suffix(path: string): (r: string)
    ensures r == [] || (r[0] == '.' && 2 <= |r| && forall j :: 1 <= j < |r| ==> r[j] != '.')
  {
    SuffixOf(Name(path))
  }

  /** The suffix of a name: from its last dot to the end, unless that dot starts
      or ends the name, in which case there is none. */
  function SuffixOf(name: string): (r: string)
    ensures r == [] || (r[0] == '.' && 2 <= |r| && forall j :: 1 <= j < |r| ==> r[j] != '.')
    ensures r != [] ==> |r| < |name| && r == name[|name| - |r|..]
    ensures var dot := LastIndexOf(name, '.');
      r == [] <==> dot.None? || dot.value == 0 || dot.value == |name| - 1
  {
    match LastIndexOf(name, '.')
    case None => ""
    case Some(i) => if 0 < i < |name| - 1 then name[i..] else ""
  }

  /** The suffix decides the parser; the comparison is case-sensitive. */
  function FormatOf(suffix: string): (r: Option<Format>)
    ensures r.Some? <==> suffix in {".yaml", ".yml", ".json"}
    ensures r == Some(Yaml) <==> suffix == ".yaml" || suffix == ".yml"
    ensures r == Some(Json) <==> suffix == ".json"
  {
    if suffix == ".yaml" || suffix == ".yml" then Some(Yaml)
    else if suffix == ".json" then Some(Json)
    else None
  }

  // ---------------------------------------------------------------- one item

  /** What `item['key']` raises on a value that is not a mapping. */
  function SubscriptError(item: Value): Exception
    requires !item.Dict?
  {
    match item
    case List(_) => Exception(TypeError, "list indices must be integers or slices, not str")
    case Str(_) => Exception(TypeError, "string indices must be integers, not 'str'")
    case _ => Exception(TypeError, "'" + TypeName(item) + "' object is not subscriptable")
  }

  function MissingKey(key: string): Exception {
    Exception(KeyError, "'" + key + "'")
  }

  /** Building one test case from a parsed item, in the order the fields are read:
      `use_case`, then `prompt`, then `expected`; `id` defaults to None and
      `metadata` to an empty mapping. */
  function ParseItem(item: Value): (r: Result<TestCase, Exception>)
    ensures r.Success? <==>
              && item.Dict? && "use_case" in item.entries && "prompt" in item.entries && "expected" in item.entries
              && UseCaseOf(item.entries["use_case"]).Success?
    ensures r.Success? ==>
              var d := item.entries;
              && r.value.prompt == d["prompt"]
              && r.value.expected == d["expected"]
              && UseCaseValue(r.value.useCase) == d["use_case"].s
              && r.value.id == (if "id" in d then d["id"] else Null)
              && r.value.metadata == (if "metadata" in d then d["metadata"] else Dict(map[]))
  {
    if !item.Dict? then Failure(SubscriptError(item))
    else
      var d := item.entries;
      if "use_case" !in d then Failure(MissingKey("use_case"))
      else
        match UseCaseOf(d["use_case"])
        case Failure(e) => Failure(e)
        case Success(u) =>
          if "prompt" !in d then Failure(MissingKey("prompt"))
          else if "expected" !in d then Failure(MissingKey("expected"))
          else
            Success(TestCase(d["prompt"], d["expected"], u,
                             if "id" in d then d["id"] else Null,
                             if "metadata" in d then d["metadata"] else Dict(map[])))
  }

  /** The error for item `idx`, wrapping whatever building it raised. */
  function ItemError(idx: nat, e: Exception): Exception {
    Exception(ValueError, "Invalid test case at index " + NatToString(idx) + ": " + e.message)
  }

  // ---------------------------------------------------------------- all items

  /** What building one item gives or raises. */
  type Build = Value -> Result<TestCase, Exception>

  /** The loop over the items, as a value: the first bad item stops it, and its
      exception is wrapped with its index. */
  function Collect(build: Build, items: seq<Value>): Result<seq<TestCase>, Exception>
    decreases |items|
  {
    if items == [] then Success([])
    else
      var n := |items| - 1;
      match Collect(build, items[..n])
      case Failure(e) => Failure(e)
      case Success(cases) =>
        match build(items[n])
        case Failure(e) => Failure(ItemError(n, e))
        case Success(tc) => Success(cases + [tc])
  }

  function ParseItems(items: seq<Value>): Result<seq<TestCase>, Exception> {
    Collect(ParseItem, items)
  }

  lemma {:induction false} CollectIsOrderPreservingMap(build: Build, items: seq<Value>)
    ensures Collect(build, items).Success? <==> forall i :: 0 <= i < |items| ==> build(items[i]).Success?
    ensures Collect(build, items).Success? ==>
              && |Collect(build, items).value| == |items|
              && forall i :: 0 <= i < |items| ==> build(items[i]) == Success(Collect(build, items).value[i])
    decreases |items|
  {
    if items != [] {
      var n := |items| - 1;
      var init := items[..n];
      CollectIsOrderPreservingMap(build, init);
      forall i | 0 <= i < n ensures init[i] == items[i] { }
      var pre := Collect(build, init);
      if pre.Success? && build(items[n]).Success? {
        var cases := pre.value + [build(items[n]).value];
        assert Collect(build, items) == Success(cases);
        forall i | 0 <= i < |items| ensures build(items[i]) == Success(cases[i]) {
          if i < n { assert build(init[i]) == Success(pre.value[i]); }
        }
      } else if pre.Success? {
        assert !build(items[n]).Success?;
      } else {
        var i :| 0 <= i < n && !build(init[i]).Success?;
        assert !build(items[i]).Success?;
      }
    }
  }

  /** The items are loaded exactly when each one is; the test cases are then in
      the same order, one per item. */
  lemma ParseItemsIsOrderPreservingMap(items: seq<Value>)
    ensures ParseItems(items).Success? <==> forall i :: 0 <= i < |items| ==> ParseItem(items[i]).Success?
    ensures ParseItems(items).Success? ==>
              && |ParseItems(items).value| == |items|
              && forall i :: 0 <= i < |items| ==> ParseItem(items[i]) == Success(ParseItems(items).value[i])
  {
    CollectIsOrderPreservingMap(ParseItem, items);
  }

  function FirstBad(build: Build, items: seq<Value>): (k: nat)
    ensures k <= |items|
    ensures forall i :: 0 <= i < k ==> build(items[i]).Success?
    ensures k < |items| ==> build(items[k]).Failure?
  {
    if items == [] || build(items[0]).Failure? then 0
    else
      var k := 1 + FirstBad(build, items[1..]);
      assert forall i :: 1 <= i < k ==> items[1..][i - 1] == items[i];
      k
  }

  lemma {:induction false} CollectReportsFirstBad(build: Build, items: seq<Value>)
    ensures var k := FirstBad(build, items);
      && (Collect(build, items).Failure? <==> k < |items|)
      && (Collect(build, items).Failure? ==> Collect(build, items).error == ItemError(k, build(items[k]).error))
    decreases |items|
  {
    if items != [] {
      var n := |items| - 1;
      var init := items[..n];
      var k := FirstBad(build, items);
      CollectReportsFirstBad(build, init);
      CollectIsOrderPreservingMap(build, init);
      assert forall i :: 0 <= i < n ==> init[i] == items[i];
      if Collect(build, init).Failure? {
        assert FirstBad(build, init) == k;
      } else {
        assert Collect(build, items).Failure? <==> build(items[n]).Failure?;
        assert build(items[n]).Failure? ==> k == n;
      }
    }
  }

  /** A load that fails on the items fails exactly when some item is bad, and
      names the index of the first bad one and the exception building it raised. */
  lemma ParseItemsReportsFirstBadIndex(items: seq<Value>)
    ensures var k := FirstBad(ParseItem, items);
      && (forall i :: 0 <= i < k ==> ParseItem(items[i]).Success?)
      && (k < |items| ==> ParseItem(items[k]).Failure?)
      && (ParseItems(items).Failure? <==> k < |items|)
      && (ParseItems(items).Failure? ==> ParseItems(items).error == ItemError(k, ParseItem(items[k]).error))
  {
    CollectReportsFirstBad(ParseItem, items);
  }

  /** Once a prefix of the items fails, loading all of them fails the same way. */
  lemma {:induction false} CollectFailurePersists(build: Build, items: seq<Value>, j: nat)
    requires j <= |items|
    requires Collect(build, items[..j]).Failure?
    ensures Collect(build, items) == Collect(build, items[..j])
    decreases |items|
  {
    if j < |items| {
      var n := |items| - 1;
      assert items[..n][..j] == items[..j];
      CollectFailurePersists(build, items[..n], j);
    } else {
      assert items[..j] == items;
    }
  }

  // ---------------------------------------------------------------- the file

  const UnsupportedFormat: Exception := Exception(ValueError, "Unsupported file format. Use .yaml or .json")
  const NotAList: Exception := Exception(ValueError, "Test file must be a list of test cases.")

  function NotFound(path: string): Exception {
    Exception(FileNotFoundError, "Test file '" + path + "' not found.")
  }

  /** `load_test_cases(path)`. */
  function LoadSpec(fs: FileSystem, path: string): Result<seq<TestCase>, Exception> {
    if !fs.exists_(path) then Failure(NotFound(path))
    else
      match FormatOf(Suffix(path))
      case None => Failure(UnsupportedFormat)
      case Some(format) =>
        match fs.read(path, format)
        case Failure(e) => Failure(e)
        case Success(data) =>
          if !data.List? then Failure(NotAList) else ParseItems(data.items)
  }

  /** Only an existing `.yaml`, `.yml` or `.json` file that parses to a list can
      load; a missing file is reported before its suffix is looked at, a
      parser's error is passed on unchanged, and data that is not a list is
      refused. */
  lemma LoadPreconditions(fs: FileSystem, path: string)
    ensures !fs.exists_(path) ==> LoadSpec(fs, path) == Failure(NotFound(path))
    ensures fs.exists_(path) && Suffix(path) !in {".yaml", ".yml", ".json"} ==>
              LoadSpec(fs, path) == Failure(UnsupportedFormat)
    ensures fs.exists_(path) && Suffix(path) in {".yaml", ".yml", ".json"} ==>
              var data := fs.read(path, FormatOf(Suffix(path)).value);
              && (data.Failure? ==> LoadSpec(fs, path) == Failure(data.error))
              && (data.Success? && !data.value.List? ==> LoadSpec(fs, path) == Failure(NotAList))
    ensures LoadSpec(fs, path).Success? ==>
              && fs.exists_(path) && Suffix(path) in {".yaml", ".yml", ".json"}
              && var data := fs.read(path, FormatOf(Suffix(path)).value);
                 data.Success? && data.value.List? && LoadSpec(fs, path) == ParseItems(data.value.items)
  {
  }

  lemma LastIndexOfAt(s: string, c: char, i: nat)
    requires i < |s| && s[i] == c && forall j :: i < j < |s| ==> s[j] != c
    ensures LastIndexOf(s, c) == Some(i)
  {
  }

  /** The suffix is taken from the last dot of the last path component. */
  lemma SuffixOfNestedPath()
    ensures Suffix("tests/qa_tests.yaml") == ".yaml"
  {
    LastIndexOfAt("tests/qa_tests.yaml", '/', 5);
    var name := "tests/qa_tests.yaml"[6..];
    assert name == "qa_tests.yaml";
    LastIndexOfAt(name, '.', 8);
    assert name[8..] == ".yaml";
  }

  /** Trailing slashes are ignored. */
  lemma SuffixIgnoresTrailingSlash()
    ensures Suffix("tests/cases.json/") == ".json"
  {
    NameIgnoresTrailingSlash();
    JsonSuffixOfName();
  }

  lemma NameIgnoresTrailingSlash()
    ensures Name("tests/cases.json/") == "cases.json"
  {
    var p := "tests/cases.json";
    assert "tests/cases.json/"[..|"tests/cases.json/"| - 1] == p;
    assert TrimTrailingSlashes(p) == p;
    LastIndexOfAt(p, '/', 5);
    assert p[6..] == "cases.json";
  }

  lemma JsonSuffixOfName()
    ensures SuffixOf("cases.json") == ".json"
  {
    LastIndexOfAt("cases.json", '.', 5);
    assert "cases.json"[5..] == ".json";
  }

  /** The comparison is case-sensitive: an upper-case suffix is rejected. */
  lemma SuffixIsCaseSensitive()
    ensures FormatOf(Suffix("tests/QA.YAML")).None?
  {
    LastIndexOfAt("tests/QA.YAML", '/', 5);
    LastIndexOfAt("QA.YAML", '.', 2);
  }

  /** A name made of the suffix alone has no suffix, so it is rejected. */
  lemma DotFileHasNoSuffix()
    ensures FormatOf(Suffix("tests/.yaml")).None?
  {
    LastIndexOfAt("tests/.yaml", '/', 5);
    LastIndexOfAt(".yaml", '.', 0);
  }

  /** Only `use_case` is checked: an item whose prompt and expected answer are
      numbers still loads. */
  lemma ShapesNotChecked()
    ensures var item := Dict(map["use_case" := Str("qa"), "prompt" := Int(1), "expected" := Int(2)]);
      && ParseItem(item) == Success(TestCase(Int(1), Int(2), Qa))
      && !DeclaredExpected(Int(2))
  {
  }

  /** `load_test_cases`, with its loop over the items. */
  method LoadTestCases(fs: FileSystem, path: string) returns (r: Result<seq<TestCase>, Exception>)
    ensures r == LoadSpec(fs, path)
  {
    if !fs.exists_(path) {
      return Failure(NotFound(path));
    }
    var format := FormatOf(Suffix(path));
    if format.None? {
      return Failure(UnsupportedFormat);
    }
    var data := fs.read(path, format.value);
    if data.Failure? {
      return Failure(data.error);
    }
    if !data.value.List? {
      return Failure(NotAList);
    }
    r := BuildTestCases(data.value.items);
  }

  /** The loop of `load_test_cases` over the parsed items. */
  method BuildTestCases(items: seq<Value>) returns (r: Result<seq<TestCase>, Exception>)
    ensures r == ParseItems(items)
  {
    var testCases: seq<TestCase> := [];
    for idx := 0 to |items|
      invariant Collect(ParseItem, items[..idx]) == Success(testCases)
    {
      assert items[..idx + 1][..idx] == items[..idx];
      var item := ParseItem(items[idx]);
      if item.Failure? {
        assert Collect(ParseItem, items[..idx + 1]) == Failure(ItemError(idx, item.error));
        CollectFailurePersists(ParseItem, items, idx + 1);
        return Failure(ItemError(idx, item.error));
      }
      assert Collect(ParseItem, items[..idx + 1]) == Success(testCases + [item.value]);
      testCases := testCases + [item.value];
    }
    assert items[..|items|] == items;
    return Success(testCases);
  }
}

=== FILE: qa.dfy ===
/**
 * The question-answering validator: normalise, look for an exact answer,
 * otherwise keep the candidate with the best similarity ratio and pass at 0.85.
 */
module QaMetric {

  import opened Wrappers
  import opened Text
  import opened Types
  import opened Foreign

  const Threshold: real := 0.85

  /** Both the answer and every expected answer are compared after strip + lower. */
  function Normalize(s: string): string {
    Lower(Strip(s))
  }

  /** The expected answers after normalisation, or why there are none. */
  datatype Answers =
    | Answers(list: seq<string>)
    | InvalidType
    | Raised(error: Exception)

  function NoStripError(v: Value): Exception {
    Exception(AttributeError, "'" + TypeName(v) + "' object has no attribute 'strip'")
  }

  /** The index of the first element that is not a string, or the length. */
  function FirstNonString(items: seq<Value>): (k: nat)
    ensures k <= |items|
    ensures forall i :: 0 <= i < k ==> items[i].Str?
    ensures k < |items| ==> !items[k].Str?
  {
    if items == [] || !items[0].Str? then 0 else 1 + FirstNonString(items[1..])
  }

  /** Normalising a list of expected answers: the comprehension raises at the
      first element that is not a string. */
  function NormalizeAll(items: seq<Value>): (a: Answers)
    ensures !a.InvalidType?
    ensures a.Answers? <==> forall i :: 0 <= i < |items| ==> items[i].Str?
    ensures a.Answers? ==> |a.list| == |items|
                           && forall i :: 0 <= i < |items| ==> a.list[i] == Normalize(items[i].s)
    ensures a.Raised? ==> a.error == NoStripError(items[FirstNonString(items)])
  {
    var k := FirstNonString(items);
    if k < |items| then Raised(NoStripError(items[k]))
    else Answers(seq(|items|, i requires 0 <= i < |items| => Normalize(items[i].s)))
  }

  /** A single string is one answer; a list is several; anything else is invalid. */
  function ExpectedAnswers(expected: Value): Answers {
    match expected
    case Str(s) => Answers([Normalize(s)])
    case List(items) => NormalizeAll(items)
    case _ => InvalidType
  }

  /** The loop over the candidates: a strict `>` keeps the first candidate that
      reaches the best ratio; it starts from (0.0, ""). */
  function BestMatch(ratio: (string, string) -> real, actual: string, xs: seq<string>): (real, string)
  {
    if xs == [] then (0.0, "")
    else
      var (best, match_) := BestMatch(ratio, actual, xs[..|xs| - 1]);
      var r := ratio(actual, xs[|xs| - 1]);
      if r > best then (r, xs[|xs| - 1]) else (best, match_)
  }

  /** The best score is the maximum of 0.0 and every ratio. */
  lemma {:induction false} BestMatchIsMaximum(ratio: (string, string) -> real, actual: string, xs: seq<string>)
    ensures BestMatch(ratio, actual, xs).0 >= 0.0
    ensures forall i :: 0 <= i < |xs| ==> ratio(actual, xs[i]) <= BestMatch(ratio, actual, xs).0
  {
    if xs != [] {
      var init := xs[..|xs| - 1];
      BestMatchIsMaximum(ratio, actual, init);
      assert forall i :: 0 <= i < |init| ==> init[i] == xs[i];
    }
  }

  /** The best score is 0.0 with an empty match when no ratio is positive, and
      otherwise it belongs to the first candidate that reaches it. */
  lemma {:induction false} BestMatchIsFirstMaximum(ratio: (string, string) -> real, actual: string, xs: seq<string>)
    ensures var (best, m) := BestMatch(ratio, actual, xs);
      && (best == 0.0 ==> m == "")
      && (best > 0.0 ==> exists k :: 0 <= k < |xs| && m == xs[k] && ratio(actual, xs[k]) == best
                                     && forall i :: 0 <= i < k ==> ratio(actual, xs[i]) < best)
  {
    if xs != [] {
      var init := xs[..|xs| - 1];
      BestMatchIsFirstMaximum(ratio, actual, init);
      BestMatchIsMaximum(ratio, actual, init);
      var (b0, m0) := BestMatch(ratio, actual, init);
      var r := ratio(actual, xs[|xs| - 1]);
      assert forall i :: 0 <= i < |init| ==> init[i] == xs[i];
      if r > b0 {
        assert forall i :: 0 <= i < |xs| - 1 ==> ratio(actual, xs[i]) < r;
      } else if b0 > 0.0 {
        var k :| 0 <= k < |init| && m0 == init[k] && ratio(actual, init[k]) == b0
                 && forall i :: 0 <= i < k ==> ratio(actual, init[i]) < b0;
        assert m0 == xs[k] && ratio(actual, xs[k]) == b0;
      }
    }
  }

  function FuzzyFeedback(best: real): string {
    "Fuzzy match (~" + IntToString(Truncate(best * 100.0)) + "%)"
  }

  function NoMatchFeedback(lib: Library, best: real, m: string): string {
    "No strong match (best: '" + m + "', score: " + lib.fixed2(best) + ")"
  }

  /** `QAValidator.score` as a value. A result passes exactly when its score is
      at least 0.85; only a list holding a non-string makes it raise. Without an
      exact match the score is the best ratio, reported as a percentage on a
      pass and together with the best match on a failure. */
  function ScoreSpec(lib: Library, actual: string, expected: Value): (r: Result<Verdict, Exception>)
    ensures r.Success? ==> (r.value.passed <==> r.value.score >= Threshold)
    ensures r.Failure? <==> ExpectedAnswers(expected).Raised?
    ensures !expected.Str? && !expected.List? ==> r == Success(Verdict(0.0, false, "Invalid expected type for QA"))
    ensures r.Success? && ExpectedAnswers(expected).Answers? && Normalize(actual) !in ExpectedAnswers(expected).list ==>
              var (best, m) := BestMatch(lib.ratio, Normalize(actual), ExpectedAnswers(expected).list);
              && r.value.score == best
              && r.value.feedback == if r.value.passed then FuzzyFeedback(best) else NoMatchFeedback(lib, best, m)
  {
    var a := Normalize(actual);
    match ExpectedAnswers(expected)
    case InvalidType => Success(Verdict(0.0, false, "Invalid expected type for QA"))
    case Raised(e) => Failure(e)
    case Answers(xs) =>
      if a in xs then Success(Verdict(1.0, true, "Exact match"))
      else
        var (best, m) := BestMatch(lib.ratio, a, xs);
        if best >= Threshold then Success(Verdict(best, true, FuzzyFeedback(best)))
        else Success(Verdict(best, false, NoMatchFeedback(lib, best, m)))
  }

  /** The candidate loop: a strictly better ratio replaces the best score and
      the match. */
  method BestCandidate(ratio: (string, string) -> real, a: string, xs: seq<string>) returns (best: real, match_: string)
    ensures (best, match_) == BestMatch(ratio, a, xs)
  {
    best, match_ := 0.0, "";
    for i := 0 to |xs|
      invariant (best, match_) == BestMatch(ratio, a, xs[..i])
    {
      assert xs[..i + 1][..i] == xs[..i];
      var r := ratio(a, xs[i]);
      if r > best {
        best, match_ := r, xs[i];
      }
    }
    assert xs[..|xs|] == xs;
  }

  /** `QAValidator.score`, with the candidate loop that updates the best score and match. */
  method Score(lib: Library, actual: string, expected: Value) returns (r: Result<Verdict, Exception>)
    ensures r == ScoreSpec(lib, actual, expected)
  {
    var a := Normalize(actual);
    var answers := ExpectedAnswers(expected);
    if answers.InvalidType? {
      return Success(Verdict(0.0, false, "Invalid expected type for QA"));
    } else if answers.Raised? {
      return Failure(answers.error);
    }
    var xs := answers.list;
    if a in xs {
      return Success(Verdict(1.0, true, "Exact match"));
    }
    var best, match_ := BestCandidate(lib.ratio, a, xs);
    if best >= Threshold {
      r := Success(Verdict(best, true, FuzzyFeedback(best)));
    } else {
      r := Success(Verdict(best, false, NoMatchFeedback(lib, best, match_)));
    }
  }

  lemma {:induction false} BestMatchInUnitInterval(ratio: (string, string) -> real, actual: string, xs: seq<string>)
    requires forall a, b :: 0.0 <= ratio(a, b) <= 1.0
    ensures 0.0 <= BestMatch(ratio, actual, xs).0 <= 1.0
  {
    if xs != [] {
      BestMatchInUnitInterval(ratio, actual, xs[..|xs| - 1]);
    }
  }

  /** With ratios in [0, 1], every score the validator returns is in [0, 1]. */
  lemma ScoreInUnitInterval(lib: Library, actual: string, expected: Value)
    requires lib.Valid()
    ensures var r := ScoreSpec(lib, actual, expected);
      r.Success? ==> 0.0 <= r.value.score <= 1.0
  {
    var a := Normalize(actual);
    match ExpectedAnswers(expected)
    case Answers(ys) =>
      if a !in ys {
        FuzzyScore(lib, actual, expected, ys);
        BestMatchInUnitInterval(lib.ratio, a, ys);
      }
    case _ =>
  }

  /** A list of strings normalises element by element. */
  lemma ListAnswers(xs: seq<Value>)
    requires forall i :: 0 <= i < |xs| ==> xs[i].Str?
    ensures ExpectedAnswers(List(xs)).Answers?
    ensures var ys := ExpectedAnswers(List(xs)).list;
      |ys| == |xs| && forall i :: 0 <= i < |xs| ==> ys[i] == Normalize(xs[i].s)
  {
  }

  /** When no normalised answer equals the normalised output, the score is the
      best ratio over the candidates and the result passes iff it reaches 0.85. */
  lemma FuzzyBranch(lib: Library, actual: string, xs: seq<Value>)
    requires forall i :: 0 <= i < |xs| ==> xs[i].Str?
    requires forall i :: 0 <= i < |xs| ==> Normalize(xs[i].s) != Normalize(actual)
    ensures var r := ScoreSpec(lib, actual, List(xs));
      && r.Success?
      && (forall i :: 0 <= i < |xs| ==> lib.ratio(Normalize(actual), Normalize(xs[i].s)) <= r.value.score)
      && r.value.score >= 0.0
      && (r.value.passed <==> r.value.score >= Threshold)
  {
    ListAnswers(xs);
    var ys := ExpectedAnswers(List(xs)).list;
    var a := Normalize(actual);
    forall i | 0 <= i < |ys| ensures ys[i] != a { }
    FuzzyScore(lib, actual, List(xs), ys);
    BestMatchIsMaximum(lib.ratio, a, ys);
  }

  lemma FuzzyScore(lib: Library, actual: string, expected: Value, ys: seq<string>)
    requires ExpectedAnswers(expected) == Answers(ys)
    requires Normalize(actual) !in ys
    ensures ScoreSpec(lib, actual, expected).Success?
    ensures ScoreSpec(lib, actual, expected).value.score == BestMatch(lib.ratio, Normalize(actual), ys).0
  {
  }

  lemma NormalizeLiteral(s: string, t: string)
    requires |s| > 0 && !IsSpace(s[0]) && !IsSpace(s[|s| - 1])
    requires |t| == |s| && forall i :: 0 <= i < |s| ==> t[i] == LowerChar(s[i])
    ensures Normalize(s) == t
  {
    StripUnchanged(s);
  }

  /** An output whose normal form equals that of any listed answer is an exact
      match, whatever the ratio. */
  lemma ExactMatchInList(lib: Library, actual: string, xs: seq<Value>, k: nat)
    requires forall i :: 0 <= i < |xs| ==> xs[i].Str?
    requires k < |xs| && Normalize(actual) == Normalize(xs[k].s)
    ensures ScoreSpec(lib, actual, List(xs)) == Success(Verdict(1.0, true, "Exact match"))
  {
    var ys := NormalizeAll(xs).list;
    assert ExpectedAnswers(List(xs)) == Answers(ys);
    assert ys[k] == Normalize(actual);
  }

  /** Whitespace around an answer never changes its normal form. */
  lemma NormalFormIgnoresSurroundingSpace(pre: string, s: string, post: string)
    requires AllSpace(pre) && AllSpace(post)
    ensures Normalize(pre + s + post) == Normalize(s)
  {
    StripIgnoresSurroundingSpace(pre, s, post);
  }

  lemma ParisStripped()
    ensures Strip(" Paris\n") == Strip("Paris")
  {
    assert " " + "Paris" + "\n" == " Paris\n";
    assert AllSpace(" ") && AllSpace("\n");
    StripIgnoresSurroundingSpace(" ", "Paris", "\n");
  }

  lemma ParisLowered()
    ensures Normalize("Paris") == "paris"
  {
    NormalizeLiteral("Paris", "paris");
  }

  lemma LowerParisUnchanged()
    ensures Normalize("paris") == "paris"
  {
    NormalizeLiteral("paris", "paris");
  }

  /** `" Paris\n"` and `"paris"` have the same normal form. */
  lemma NormalFormIgnoresCaseAndSpace()
    ensures Normalize(" Paris\n") == "paris"
    ensures Normalize("paris") == "paris"
  {
    ParisStripped();
    ParisLowered();
    LowerParisUnchanged();
  }

  /** An answer that equals the single expected string once both are stripped and
      lower-cased is an exact match, whatever the similarity ratio. */
  lemma SameNormalFormIsExactMatch(lib: Library, actual: string, expected: string)
    requires Normalize(actual) == Normalize(expected)
    ensures ScoreSpec(lib, actual, Str(expected)) == Success(Verdict(1.0, true, "Exact match"))
  {
  }

  /** No candidates: score 0.0, failure, and an empty best match in the feedback. */
  lemma EmptyListScoresZero(lib: Library, actual: string)
    ensures ScoreSpec(lib, actual, List([])) == Success(Verdict(0.0, false, NoMatchFeedback(lib, 0.0, "")))
  {
  }
}

=== FILE: runner.dfy ===
/**
 * The evaluation runner: calls the model once per test case, in order, turns
 * a model exception into a failing result, scores every other output with the
 * validator registered for the case's use case, and aborts when a use case has
 * no validator or a validator raises.
 */
module Runner {

  import opened Wrappers
  import opened Types
  import opened Foreign
  import QaMetric
  import CodegenMetric
  import SummarizationMetric
  import SentimentMetric

  // ---------------------------------------------------------------- dispatch

  datatype Validator = QaValidator | SummarizationValidator | CodegenValidator | SentimentValidator

  /** The module-level table of validators; the other ten use cases have none. */
  const Dispatch: map<UseCase, Validator> :=
    map[Qa := QaValidator, Summarization := SummarizationValidator,
        Codegen := CodegenValidator, Sentiment := SentimentValidator]

  lemma DispatchDomain(u: UseCase)
    ensures u in Dispatch <==> u in {Qa, Summarization, Codegen, Sentiment}
    ensures |Dispatch.Keys| == 4
  {
    assert Dispatch.Keys == {Qa, Summarization, Codegen, Sentiment};
  }

  /** What `validator.score(actual, expected)` returns or raises. */
  function ValidatorSpec(lib: Library, v: Validator, actual: string, expected: Value): Result<Verdict, Exception> {
    match v
    case QaValidator => QaMetric.ScoreSpec(lib, actual, expected)
    case SummarizationValidator => SummarizationMetric.ScoreSpec(lib, actual, expected)
    case CodegenValidator => CodegenMetric.ScoreSpec(lib, actual, expected)
    case SentimentValidator => SentimentMetric.ScoreSpec(lib, actual, expected)
  }

  /** `validator.score(actual, expected)`. */
  method Validate(lib: Library, v: Validator, actual: string, expected: Value) returns (r: Result<Verdict, Exception>)
    ensures r == ValidatorSpec(lib, v, actual, expected)
  {
    match v
    case QaValidator => r := QaMetric.Score(lib, actual, expected);
    case SummarizationValidator => r := SummarizationMetric.ScoreSpec(lib, actual, expected);
    case CodegenValidator => r := CodegenMetric.ScoreSpec(lib, actual, expected);
    case SentimentValidator => r := SentimentMetric.ScoreSpec(lib, actual, expected);
  }

  function NoValidatorError(u: UseCase): Exception {
    Exception(ValueError, "No validator implemented for use case: UseCase." + UseCaseName(u))
  }

  // ---------------------------------------------------------------- one case

  /** What becomes of one test case once the model replied `reply` (an output,
      or the text of the exception it raised): a result, or an exception that
      ends the run. */
  function CaseOutcome(lib: Library, c: TestCase, reply: Result<string, string>): (r: Result<EvalResult, Exception>)
    ensures r.Success? ==> && r.value.prompt == c.prompt && r.value.expected == c.expected
                           && r.value.useCase == c.useCase && r.value.metadata == c.metadata
    ensures reply.Failure? ==> && r.Success? && r.value.actual == reply.error
                               && r.value.score == 0.0 && !r.value.passed
                               && r.value.feedback == Some("Model error: " + reply.error)
  {
    match reply
    case Failure(e) =>
      Success(EvalResult(c.prompt, c.expected, e, c.useCase, 0.0, false, Some("Model error: " + e), c.metadata))
    case Success(output) =>
      if c.useCase !in Dispatch then Failure(NoValidatorError(c.useCase))
      else
        match ValidatorSpec(lib, Dispatch[c.useCase], output, c.expected)
        case Failure(x) => Failure(x)
        case Success(v) =>
          Success(EvalResult(c.prompt, c.expected, output, c.useCase, v.score, v.passed, Some(v.feedback), c.metadata))
  }

  /** The validator lookup happens only after the model returned: an output for
      an unregistered use case raises ValueError, and otherwise the result carries
      exactly the validator's triple, or the validator's exception ends the run. */
  lemma OutputIsScoredByRegisteredValidator(lib: Library, c: TestCase, output: string)
    ensures c.useCase !in Dispatch ==> CaseOutcome(lib, c, Success(output)) == Failure(NoValidatorError(c.useCase))
    ensures c.useCase in Dispatch ==>
              var r := CaseOutcome(lib, c, Success(output));
              var v := ValidatorSpec(lib, Dispatch[c.useCase], output, c.expected);
              && (r.Success? <==> v.Success?)
              && (r.Failure? ==> r.error == v.error)
              && (r.Success? ==> && r.value.actual == output
                                 && (r.value.score, r.value.passed, r.value.feedback)
                                    == (v.value.score, v.value.passed, Some(v.value.feedback)))
  {
  }

  // ---------------------------------------------------------------- a whole run

  /** The model's behaviour: its reply to a prompt, given every prompt it
      received before. */
  type Respond = (seq<Value>, Value) -> Result<string, string>

  /** A run's outcome together with the prompts it sent to the model, in order. */
  datatype Trace = Trace(outcome: Result<seq<EvalResult>, Exception>, calls: seq<Value>)

  function Prompts(cases: seq<TestCase>): (ps: seq<Value>)
    ensures |ps| == |cases| && forall i :: 0 <= i < |cases| ==> ps[i] == cases[i].prompt
  {
    seq(|cases|, i requires 0 <= i < |cases| => cases[i].prompt)
  }

  /** `Runner.run` on a model that has already seen `history`. */
  function RunSpec(lib: Library, respond: Respond, history: seq<Value>, cases: seq<TestCase>): Trace
    decreases |cases|
  {
    if cases == [] then Trace(Success([]), [])
    else
      var c := cases[0];
      match CaseOutcome(lib, c, respond(history, c.prompt))
      case Failure(e) => Trace(Failure(e), [c.prompt])
      case Success(r) =>
        var rest := RunSpec(lib, respond, history + [c.prompt], cases[1..]);
        Trace(if rest.outcome.Success? then Success([r] + rest.outcome.value) else rest.outcome,
              [c.prompt] + rest.calls)
  }

  /** The reply the model gives to case `i` when every earlier case was sent first. */
  function ReplyAt(respond: Respond, history: seq<Value>, cases: seq<TestCase>, i: nat): Result<string, string>
    requires i < |cases|
  {
    respond(history + Prompts(cases[..i]), cases[i].prompt)
  }

  lemma PromptsCons(cases: seq<TestCase>)
    requires cases != []
    ensures Prompts(cases) == [cases[0].prompt] + Prompts(cases[1..])
  {
  }

  /** Case `i` of a run sees the same history as case `i - 1` of the run that
      starts after the first case. */
  lemma ReplyShift(respond: Respond, history: seq<Value>, cases: seq<TestCase>, i: nat)
    requires 1 <= i < |cases|
    ensures cases[1..][i - 1] == cases[i]
    ensures ReplyAt(respond, history + [cases[0].prompt], cases[1..], i - 1) == ReplyAt(respond, history, cases, i)
  {
    assert cases[1..][..i - 1] == cases[1..i];
    PromptsCons(cases[..i]);
    assert cases[..i][1..] == cases[1..i];
    assert history + [cases[0].prompt] + Prompts(cases[1..i]) == history + ([cases[0].prompt] + Prompts(cases[1..i]));
  }

  lemma ReplyFirst(respond: Respond, history: seq<Value>, cases: seq<TestCase>)
    requires cases != []
    ensures ReplyAt(respond, history, cases, 0) == respond(history, cases[0].prompt)
  {
    assert Prompts(cases[..0]) == [];
    assert history + [] == history;
  }

  /** A run that returns gives exactly one result per case, in input order; the
      result of case `i` is that case's outcome given the model's reply to it,
      and the model was called once per case, in order. */
  lemma {:induction false} RunIsOrderPreservingMap(lib: Library, respond: Respond, history: seq<Value>, cases: seq<TestCase>)
    ensures var t := RunSpec(lib, respond, history, cases);
      t.outcome.Success? ==>
        && |t.outcome.value| == |cases|
        && t.calls == Prompts(cases)
        && forall i :: 0 <= i < |cases| ==>
             CaseOutcome(lib, cases[i], ReplyAt(respond, history, cases, i)) == Success(t.outcome.value[i])
    decreases |cases|
  {
    var t := RunSpec(lib, respond, history, cases);
    if cases != [] && t.outcome.Success? {
      var c := cases[0];
      var h' := history + [c.prompt];
      var o := CaseOutcome(lib, c, respond(history, c.prompt));
      var rest := RunSpec(lib, respond, h', cases[1..]);
      assert o.Success? && rest.outcome.Success?;
      assert t == Trace(Success([o.value] + rest.outcome.value), [c.prompt] + rest.calls);
      RunIsOrderPreservingMap(lib, respond, h', cases[1..]);
      PromptsCons(cases);
      OutcomesCons(lib, respond, history, cases, o.value, rest.outcome.value);
    }
  }

  /** The outcomes of a whole run are the first case's outcome followed by
      those of the run that starts after the first case. */
  lemma OutcomesCons(lib: Library, respond: Respond, history: seq<Value>, cases: seq<TestCase>,
                     r: EvalResult, rs: seq<EvalResult>)
    requires 1 <= |cases| && |rs| == |cases| - 1
    requires CaseOutcome(lib, cases[0], respond(history, cases[0].prompt)) == Success(r)
    requires forall i :: 0 <= i < |rs| ==>
               CaseOutcome(lib, cases[1..][i], ReplyAt(respond, history + [cases[0].prompt], cases[1..], i)) == Success(rs[i])
    ensures forall i :: 0 <= i < |cases| ==>
              CaseOutcome(lib, cases[i], ReplyAt(respond, history, cases, i)) == Success(([r] + rs)[i])
  {
    ReplyFirst(respond, history, cases);
    forall i | 1 <= i < |cases|
      ensures CaseOutcome(lib, cases[i], ReplyAt(respond, history, cases, i)) == Success(([r] + rs)[i])
    {
      ReplyShift(respond, history, cases, i);
      assert ([r] + rs)[i] == rs[i - 1];
    }
  }

  /** The index of the first case whose outcome is an exception, when the model
      replies as it would during a run, or `|cases|` when there is none. */
  function FirstFailure(lib: Library, respond: Respond, history: seq<Value>, cases: seq<TestCase>): (k: nat)
    ensures k <= |cases|
    decreases |cases|
  {
    if cases == [] then 0
    else if CaseOutcome(lib, cases[0], respond(history, cases[0].prompt)).Failure? then 0
    else 1 + FirstFailure(lib, respond, history + [cases[0].prompt], cases[1..])
  }

  /** Every case before `FirstFailure` has a result, and the case at that index
      (if any) raises. */
  lemma {:induction false} FirstFailureIsFirst(lib: Library, respond: Respond, history: seq<Value>, cases: seq<TestCase>)
    ensures var k := FirstFailure(lib, respond, history, cases);
      && (forall i :: 0 <= i < k ==> CaseOutcome(lib, cases[i], ReplyAt(respond, history, cases, i)).Success?)
      && (k < |cases| ==> CaseOutcome(lib, cases[k], ReplyAt(respond, history, cases, k)).Failure?)
    decreases |cases|
  {
    if cases != [] {
      var c := cases[0];
      var h' := history + [c.prompt];
      var k := FirstFailure(lib, respond, history, cases);
      ReplyFirst(respond, history, cases);
      if CaseOutcome(lib, c, respond(history, c.prompt)).Success? {
        FirstFailureIsFirst(lib, respond, h', cases[1..]);
        forall i | 1 <= i < k
          ensures CaseOutcome(lib, cases[i], ReplyAt(respond, history, cases, i)).Success?
        {
          ReplyShift(respond, history, cases, i);
        }
        if k < |cases| {
          ReplyShift(respond, history, cases, k);
        }
      }
    }
  }

  /** A run raises exactly when some case's outcome is an exception; it then
      raises the exception of the first such case, after calling the model for
      every case up to and including that one. */
  lemma {:induction false} RunAbortsAtFirstFailure(lib: Library, respond: Respond, history: seq<Value>, cases: seq<TestCase>)
    ensures var t := RunSpec(lib, respond, history, cases);
            var k := FirstFailure(lib, respond, history, cases);
      && (t.outcome.Failure? <==> k < |cases|)
      && (t.outcome.Failure? ==>
            && CaseOutcome(lib, cases[k], ReplyAt(respond, history, cases, k)) == Failure(t.outcome.error)
            && t.calls == Prompts(cases[..k + 1]))
    decreases |cases|
  {
    if cases != [] {
      var c := cases[0];
      var h' := history + [c.prompt];
      var k := FirstFailure(lib, respond, history, cases);
      ReplyFirst(respond, history, cases);
      if CaseOutcome(lib, c, respond(history, c.prompt)).Failure? {
        assert Prompts(cases[..1]) == [c.prompt];
      } else {
        RunAbortsAtFirstFailure(lib, respond, h', cases[1..]);
        if k < |cases| {
          ReplyShift(respond, history, cases, k);
          PromptsCons(cases[..k + 1]);
          assert cases[..k + 1][1..] == cases[1..][..k];
        }
      }
    }
  }

  /** Failure isolation: when every model call raises, the run never aborts,
      even for use cases without a validator, and every result fails with score
      0.0 and the exception's text as output. */
  lemma FailingModelNeverAborts(lib: Library, respond: Respond, history: seq<Value>, cases: seq<TestCase>)
    requires forall h, p :: respond(h, p).Failure?
    ensures var t := RunSpec(lib, respond, history, cases);
      && t.outcome.Success?
      && |t.outcome.value| == |cases|
      && forall i :: 0 <= i < |cases| ==>
           && t.outcome.value[i].score == 0.0
           && !t.outcome.value[i].passed
           && t.outcome.value[i].actual == ReplyAt(respond, history, cases, i).error
  {
    FirstFailureIsFirst(lib, respond, history, cases);
    RunAbortsAtFirstFailure(lib, respond, history, cases);
    RunIsOrderPreservingMap(lib, respond, history, cases);
  }

  // ---------------------------------------------------------------- objects

  /** The user's model function. It may keep state, so what it replies may depend
      on every prompt it received before; `prompts` logs those calls. */
  class Model {
    const respond: Respond
    var prompts: seq<Value>

    constructor (respond: Respond)
      ensures this.respond == respond && prompts == []
    {
      this.respond := respond;
      prompts := [];
    }

    /** `self.model(prompt)`: an output, or the text of the exception it raised. */
    method Call(prompt: Value) returns (reply: Result<string, string>)
      modifies this
      ensures prompts == old(prompts) + [prompt]
      ensures reply == respond(old(prompts), prompt)
    {
      reply := respond(prompts, prompt);
      prompts := prompts + [prompt];
    }
  }

  class Runner {
    const model: Model
    const lib: Library

    constructor (model: Model, lib: Library)
      ensures this.model == model && this.lib == lib
    {
      this.model := model;
      this.lib := lib;
    }

    /** One iteration of the loop of `Runner.run`: call the model, then either
        record its exception or score its output. */
    method RunCase(c: TestCase) returns (o: Result<EvalResult, Exception>)
      modifies model
      ensures model.prompts == old(model.prompts) + [c.prompt]
      ensures o == CaseOutcome(lib, c, model.respond(old(model.prompts), c.prompt))
    {
      // 1. Run model
      var reply := model.Call(c.prompt);
      if reply.Failure? {
        return Success(EvalResult(c.prompt, c.expected, reply.error, c.useCase, 0.0, false,
                                  Some("Model error: " + reply.error), c.metadata));
      }
      // 2. Validate output
      if c.useCase !in Dispatch {
        return Failure(NoValidatorError(c.useCase));
      }
      var verdict := Validate(lib, Dispatch[c.useCase], reply.value, c.expected);
      if verdict.Failure? {
        return Failure(verdict.error);
      }
      // 3. Collect result
      o := Success(EvalResult(c.prompt, c.expected, reply.value, c.useCase, verdict.value.score,
                              verdict.value.passed, Some(verdict.value.feedback), c.metadata));
    }

    /** `Runner.run`: what it returns or raises, and the model calls it makes,
        are those of `RunSpec` from the model's current history. */
    method Run(cases: seq<TestCase>) returns (out: Result<seq<EvalResult>, Exception>)
      modifies model
      ensures out == RunSpec(lib, model.respond, old(model.prompts), cases).outcome
      ensures model.prompts == old(model.prompts) + RunSpec(lib, model.respond, old(model.prompts), cases).calls
    {
      ghost var h0 := model.prompts;
      ghost var done: seq<Value> := [];
      var results: seq<EvalResult> := [];
      var i := 0;
      assert cases[0..] == cases;
      ExtendNothing(RunSpec(lib, model.respond, h0, cases));
      while i < |cases|
        invariant 0 <= i <= |cases|
        invariant model.prompts == h0 + done
        invariant Extend(results, done, RunSpec(lib, model.respond, model.prompts, cases[i..]))
                  == RunSpec(lib, model.respond, h0, cases)
      {
        var c := cases[i];
        assert cases[i..][0] == c && cases[i..][1..] == cases[i + 1..];
        var o := RunCase(c);
        if o.Failure? {
          return Failure(o.error);
        }
        ExtendStep(results, done, o.value, c.prompt, RunSpec(lib, model.respond, model.prompts, cases[i + 1..]));
        results := results + [o.value];
        done := done + [c.prompt];
        i := i + 1;
      }
      assert cases[i..] == [];
      assert results + [] == results;
      return Success(results);
    }
  }

  /** The spec of a run whose first part already produced `done` results after
      the prompts `calls`. */
  ghost function Extend(done: seq<EvalResult>, calls: seq<Value>, t: Trace): Trace {
    Trace(if t.outcome.Success? then Success(done + t.outcome.value) else t.outcome, calls + t.calls)
  }

  lemma ExtendStep(done: seq<EvalResult>, calls: seq<Value>, r: EvalResult, p: Value, rest: Trace)
    ensures Extend(done, calls, Trace(if rest.outcome.Success? then Success([r] + rest.outcome.value) else rest.outcome,
                                      [p] + rest.calls))
            == Extend(done + [r], calls + [p], rest)
  {
    assert calls + ([p] + rest.calls) == calls + [p] + rest.calls;
    if rest.outcome.Success? {
      assert done + ([r] + rest.outcome.value) == done + [r] + rest.outcome.value;
    }
  }

  lemma ExtendNothing(t: Trace)
    ensures Extend([], [], t) == t
  {
    assert [] + t.calls == t.calls;
    if t.outcome.Success? {
      assert [] + t.outcome.value == t.outcome.value;
    }
  }
}

=== FILE: sentiment.dfy ===
/**
 * The sentiment validator: the distance between the two polarities decides
 * the pass (below 0.3) and the score (1 minus it, clamped at 0).
 */
module SentimentMetric {

  import opened Wrappers
  import opened Types
  import opened Foreign

  const Threshold: real := 0.3

  function Abs(x: real): (y: real)
    ensures y >= 0.0 && (y == x || y == -x)
  {
    if x < 0.0 then -x else x
  }

  function Max(a: real, b: real): real {
    if a < b then b else a
  }

  function NotTextError(v: Value): Exception {
    Exception(TypeError, "The `text` argument passed to `__init__(text)` must be a string, not <class '"
                         + TypeName(v) + "'>")
  }

  /** `SentimentValidator.score`. */
  function ScoreSpec(lib: Library, actual: string, expected: Value): (r: Result<Verdict, Exception>)
    ensures r.Success? <==> expected.Str?
    ensures r.Success? ==>
              var diff := Abs(lib.polarity(actual) - lib.polarity(expected.s));
              && (r.value.passed <==> diff < Threshold)
              && 0.0 <= r.value.score
              && r.value.score == if diff <= 1.0 then 1.0 - diff else 0.0
    ensures r.Success? ==>
              var pa := lib.polarity(actual);
              var pe := lib.polarity(expected.s);
              r.value.feedback == "Polarity diff: " + lib.fixed2(Abs(pa - pe)) + ", Expected: " + lib.fixed2(pe)
                                  + ", Got: " + lib.fixed2(pa)
  {
    if !expected.Str? then Failure(NotTextError(expected))
    else
      var pa := lib.polarity(actual);
      var pe := lib.polarity(expected.s);
      var diff := Abs(pa - pe);
      Success(Verdict(Max(0.0, 1.0 - diff), diff < Threshold,
                      "Polarity diff: " + lib.fixed2(diff) + ", Expected: " + lib.fixed2(pe)
                      + ", Got: " + lib.fixed2(pa)))
  }

  /** The score never exceeds 1.0, and a pass always scores above 0.7. */
  lemma ScoreBounds(lib: Library, actual: string, expected: string)
    ensures var v := ScoreSpec(lib, actual, Str(expected)).value;
      && 0.0 <= v.score <= 1.0
      && (v.passed ==> v.score > 0.7)
  {
  }

  /** Swapping the output and the expected text changes neither score nor pass. */
  lemma Symmetric(lib: Library, a: string, b: string)
    ensures ScoreSpec(lib, a, Str(b)).value.score == ScoreSpec(lib, b, Str(a)).value.score
    ensures ScoreSpec(lib, a, Str(b)).value.passed == ScoreSpec(lib, b, Str(a)).value.passed
  {
  }

  /** Equal polarities score 1.0 and pass. */
  lemma EqualPolarities(lib: Library, a: string, b: string)
    requires lib.polarity(a) == lib.polarity(b)
    ensures ScoreSpec(lib, a, Str(b)).value.score == 1.0
    ensures ScoreSpec(lib, a, Str(b)).value.passed
  {
  }
}

=== FILE: suite.dfy ===
/**
 * The evaluation suite: it keeps the results of the last successful run and
 * the use case last asked for, runs the matching test cases of a file, and
 * summarises the stored results by mean score and pass rate.
 */
module Suite {

  import opened Wrappers
  import opened Types
  import opened Foreign
  import Loader
  import Runner
  import QaMetric

  // ---------------------------------------------------------------- selection

  /** The test cases of one use case, in their original order. */
  function Select(cases: seq<TestCase>, u: UseCase): (r: seq<TestCase>)
    ensures |r| <= |cases|
    ensures forall i :: 0 <= i < |r| ==> r[i].useCase == u
    ensures forall c :: c in r <==> c in cases && c.useCase == u
  {
    if cases == [] then []
    else (if cases[0].useCase == u then [cases[0]] else []) + Select(cases[1..], u)
  }

  /** Selection distributes over concatenation, so it keeps relative order. */
  lemma {:induction false} SelectAppend(a: seq<TestCase>, b: seq<TestCase>, u: UseCase)
    ensures Select(a + b, u) == Select(a, u) + Select(b, u)
  {
    if a == [] {
      assert a + b == b;
    } else {
      assert (a + b)[0] == a[0];
      assert (a + b)[1..] == a[1..] + b;
      SelectAppend(a[1..], b, u);
    }
  }

  // ---------------------------------------------------------------- aggregation

  function SumScores(rs: seq<EvalResult>): real {
    if rs == [] then 0.0 else rs[0].score + SumScores(rs[1..])
  }

  function CountPassed(rs: seq<EvalResult>): (n: nat)
    ensures n <= |rs|
  {
    if rs == [] then 0 else (if rs[0].passed then 1 else 0) + CountPassed(rs[1..])
  }

  lemma {:induction false} AllPassedCount(rs: seq<EvalResult>)
    requires forall i :: 0 <= i < |rs| ==> rs[i].passed
    ensures CountPassed(rs) == |rs|
  {
    if rs != [] {
      AllPassedCount(rs[1..]);
    }
  }

  /** The mean score and the pass rate of non-empty results. */
  function Aggregate(results: seq<EvalResult>, useCase: UseCase): (s: EvalSummary)
    requires results != []
    ensures s.results == results && s.useCase == useCase
    ensures s.avgScore * |results| as real == SumScores(results)
    ensures s.passRate * |results| as real == CountPassed(results) as real
    ensures 0.0 <= s.passRate <= 1.0
  {
    var n := |results| as real;
    EvalSummary(results, SumScores(results) / n, CountPassed(results) as real / n, useCase)
  }

  /** When every result passed, the pass rate is exactly 1.0. */
  lemma AllPassedRateIsOne(results: seq<EvalResult>, useCase: UseCase)
    requires results != []
    requires forall i :: 0 <= i < |results| ==> results[i].passed
    ensures Aggregate(results, useCase).passRate == 1.0
  {
    AllPassedCount(results);
  }

  lemma {:induction false} SumScoresBounds(rs: seq<EvalResult>, lo: real, hi: real)
    requires forall i :: 0 <= i < |rs| ==> lo <= rs[i].score <= hi
    ensures |rs| as real * lo <= SumScores(rs) <= |rs| as real * hi
  {
    if rs != [] {
      SumScoresBounds(rs[1..], lo, hi);
    }
  }

  lemma QuotientBounds(sum: real, n: real, avg: real, lo: real, hi: real)
    requires n > 0.0 && avg * n == sum
    requires n * lo <= sum <= n * hi
    ensures lo <= avg <= hi
  {
    assert (avg - lo) * n == sum - n * lo;
    assert (hi - avg) * n == n * hi - sum;
  }

  /** The mean lies between any lower and upper bound on the scores; with every
      score in [0, 1], so does the mean. */
  lemma AverageWithinBounds(results: seq<EvalResult>, useCase: UseCase, lo: real, hi: real)
    requires results != []
    requires forall i :: 0 <= i < |results| ==> lo <= results[i].score <= hi
    ensures lo <= Aggregate(results, useCase).avgScore <= hi
  {
    SumScoresBounds(results, lo, hi);
    QuotientBounds(SumScores(results), |results| as real, Aggregate(results, useCase).avgScore, lo, hi);
  }

  // ---------------------------------------------------------------- errors

  const NothingToSummarize: Exception := Exception(RuntimeError, "Run `.run()` before summarizing.")
  const NothingToVisualize: Exception := Exception(RuntimeError, "No results to visualize.")
  const NothingToSave: Exception := Exception(RuntimeError, "No results to save.")

  function NoCases(useCaseName: string): Exception {
    Exception(ValueError, "No test cases found for use case '" + useCaseName + "'")
  }

  // ---------------------------------------------------------------- the suite

  class EvalSuite {
    const model: Runner.Model
    const lib: Library
    var results: seq<EvalResult>
    var useCase: Option<UseCase>

    /** Stored results always come with the use case they were run for. */
    ghost predicate Valid()
      reads this
    {
      results != [] ==> useCase.Some?
    }

    constructor (model: Runner.Model, lib: Library)
      ensures Valid()
      ensures this.model == model && this.lib == lib
      ensures results == [] && useCase == None
    {
      this.model := model;
      this.lib := lib;
      results := [];
      useCase := None;
    }

    /** `EvalSuite.run(use_case, test_file)`: `err` is the exception it raises,
        if any. The use case is recorded before the file is loaded, and the
        stored results change only when the run returns. */
    method Run(useCaseName: string, testFile: string, fs: Loader.FileSystem) returns (err: Option<Exception>)
      requires Valid()
      modifies this, model
      ensures Valid()
      ensures ParseUseCase(useCaseName).None? ==>
                && err == Some(UseCaseOf(Str(useCaseName)).error)
                && results == old(results) && useCase == old(useCase) && model.prompts == old(model.prompts)
      ensures ParseUseCase(useCaseName).Some? ==> useCase == ParseUseCase(useCaseName)
      ensures var loaded := Loader.LoadSpec(fs, testFile);
              ParseUseCase(useCaseName).Some? && loaded.Failure? ==>
                && err == Some(loaded.error)
                && results == old(results) && model.prompts == old(model.prompts)
      ensures var loaded := Loader.LoadSpec(fs, testFile);
              ParseUseCase(useCaseName).Some? && loaded.Success?
              && Select(loaded.value, ParseUseCase(useCaseName).value) == [] ==>
                && err == Some(NoCases(useCaseName))
                && results == old(results) && model.prompts == old(model.prompts)
      ensures var loaded := Loader.LoadSpec(fs, testFile);
              ParseUseCase(useCaseName).Some? && loaded.Success?
              && Select(loaded.value, ParseUseCase(useCaseName).value) != [] ==>
                var t := Runner.RunSpec(lib, model.respond, old(model.prompts),
                                        Select(loaded.value, ParseUseCase(useCaseName).value));
                && model.prompts == old(model.prompts) + t.calls
                && (t.outcome.Success? ==> err == None && results == t.outcome.value)
                && (t.outcome.Failure? ==> err == Some(t.outcome.error) && results == old(results))
    {
      var parsed := UseCaseOf(Str(useCaseName));
      if parsed.Failure? {
        return Some(parsed.error);
      }
      var u := parsed.value;
      useCase := Some(u);
      var loaded := Loader.LoadTestCases(fs, testFile);
      if loaded.Failure? {
        return Some(loaded.error);
      }
      var selected := Select(loaded.value, u);
      if selected == [] {
        return Some(NoCases(useCaseName));
      }
      var runner := new Runner.Runner(model, lib);
      var out := runner.Run(selected);
      if out.Failure? {
        return Some(out.error);
      }
      results := out.value;
      err := None;
    }

    /** `EvalSuite.summarize()`. */
    function Summarize(): (r: Result<EvalSummary, Exception>)
      reads this
      requires Valid()
      ensures r.Failure? <==> results == []
      ensures r.Failure? ==> r.error == NothingToSummarize
      ensures r.Success? ==> r.value == Aggregate(results, useCase.value)
    {
      if results == [] then Failure(NothingToSummarize)
      else Success(Aggregate(results, useCase.value))
    }

    /** `EvalSuite.visualize()`: refuses when there is nothing to show; the
        rendering itself is not part of this model. */
    method Visualize() returns (err: Option<Exception>)
      ensures err.Some? <==> results == []
      ensures err.Some? ==> err.value == NothingToVisualize
    {
      if results == [] {
        return Some(NothingToVisualize);
      }
      err := None;
    }

    /** `EvalSuite.save(path)`: refuses when there is nothing to save; a failing
        write is logged, not raised, so nothing else is raised. */
    method Save(path: string := "results.json") returns (err: Option<Exception>)
      ensures err.Some? <==> results == []
      ensures err.Some? ==> err.value == NothingToSave
    {
      if results == [] {
        return Some(NothingToSave);
      }
      err := None;
    }
  }

  /** One QA case whose expected answer is the model's reply scores 1.0 and passes. */
  lemma ExactReplyCase(lib: Library, c: TestCase, reply: string)
    requires c.useCase == Qa && c.expected == Str(reply)
    ensures var r := Runner.CaseOutcome(lib, c, Success(reply));
      r.Success? && r.value.score == 1.0 && r.value.passed
  {
    QaMetric.SameNormalFormIsExactMatch(lib, reply, reply);
    assert Runner.Dispatch[Qa] == Runner.QaValidator;
    assert Runner.ValidatorSpec(lib, Runner.QaValidator, reply, c.expected)
        == Success(Verdict(1.0, true, "Exact match"));
    Runner.OutputIsScoredByRegisteredValidator(lib, c, reply);
  }

  /** A run of a single case returns that case's result when it has one. */
  lemma SingleCaseRun(lib: Library, respond: Runner.Respond, history: seq<Value>, c: TestCase)
    ensures var r := Runner.CaseOutcome(lib, c, respond(history, c.prompt));
      r.Success? ==> Runner.RunSpec(lib, respond, history, [c]).outcome == Success([r.value])
  {
    assert [c][0] == c;
    assert [c][1..] == [];
    assert Runner.RunSpec(lib, respond, history + [c.prompt], []).outcome == Success([]);
    var r := Runner.CaseOutcome(lib, c, respond(history, c.prompt));
    if r.Success? {
      assert [r.value] + [] == [r.value];
    }
  }

  lemma SingleResultSummary(r: EvalResult, u: UseCase)
    ensures Aggregate([r], u).avgScore == r.score
    ensures Aggregate([r], u).passRate == if r.passed then 1.0 else 0.0
  {
    assert [r][0] == r;
    assert [r][1..] == [];
    assert SumScores([r]) == r.score + SumScores([]);
  }

  /** End to end: a model that always answers "Paris", on one QA case expecting
      "Paris", yields a summary with mean score 1.0 and pass rate 1.0. */
  lemma ParisEndToEnd(lib: Library, respond: Runner.Respond, history: seq<Value>)
    requires forall h, p :: respond(h, p) == Success("Paris")
    ensures var cases := [TestCase(Str("What is the capital of France?"), Str("Paris"), Qa)];
      var t := Runner.RunSpec(lib, respond, history, cases);
      && t.outcome.Success?
      && |t.outcome.value| == 1
      && Aggregate(t.outcome.value, Qa).avgScore == 1.0
      && Aggregate(t.outcome.value, Qa).passRate == 1.0
  {
    var c := TestCase(Str("What is the capital of France?"), Str("Paris"), Qa);
    assert respond(history, c.prompt) == Success("Paris");
    ExactReplyCase(lib, c, "Paris");
    SingleCaseRun(lib, respond, history, c);
    var r := Runner.CaseOutcome(lib, c, Success("Paris"));
    SingleResultSummary(r.value, Qa);
  }
}

=== FILE: summarization.dfy ===
/**
 * The summarisation validator: the ROUGE-L F-measure between the reference
 * and the output, passing at 0.4.
 */
module SummarizationMetric {

  import opened Wrappers
  import opened Types
  import opened Foreign

  const Threshold: real := 0.4

  /** The reference text: the first element of a list, otherwise `expected` itself. */
  function Reference(expected: Value): Result<Value, Exception> {
    if expected.List? then
      if expected.items == [] then Failure(Exception(IndexError, "list index out of range"))
      else Success(expected.items[0])
    else Success(expected)
  }

  /** `SummarizationValidator.score`: the F-measure of (reference, output) in that
      order, unclamped; it passes iff it is at least 0.4. */
  function ScoreSpec(lib: Library, actual: string, expected: Value): (r: Result<Verdict, Exception>)
    ensures r.Success? <==> Reference(expected).Success? && Reference(expected).value.Str?
    ensures r.Success? ==> r.value.score == lib.rougeL(Reference(expected).value.s, actual)
    ensures r.Success? ==> (r.value.passed <==> r.value.score >= Threshold)
    ensures r.Success? ==> r.value.feedback == "ROUGE-L: " + lib.fixed2(r.value.score)
  {
    match Reference(expected)
    case Failure(e) => Failure(e)
    case Success(reference) =>
      if !reference.Str? then
        Failure(Exception(AttributeError, "'" + TypeName(reference) + "' object has no attribute 'lower'"))
      else
        var f := lib.rougeL(reference.s, actual);
        Success(Verdict(f, f >= Threshold, "ROUGE-L: " + lib.fixed2(f)))
  }

  /** Only the first element of a list reference matters: "ref" and
      ["ref", ...anything] score alike. */
  lemma FirstElementOnly(lib: Library, actual: string, reference: string, rest: seq<Value>)
    ensures ScoreSpec(lib, actual, List([Str(reference)] + rest)) == ScoreSpec(lib, actual, Str(reference))
  {
  }

  /** An empty list of references raises IndexError. */
  lemma EmptyReferenceList(lib: Library, actual: string)
    ensures ScoreSpec(lib, actual, List([])) == Failure(Exception(IndexError, "list index out of range"))
  {
  }

  /** With the F-measure in [0, 1], so is the score. */
  lemma ScoreInUnitInterval(lib: Library, actual: string, expected: Value)
    requires lib.Valid()
    ensures var r := ScoreSpec(lib, actual, expected);
      r.Success? ==> 0.0 <= r.value.score <= 1.0
  {
  }
}

=== FILE: text.dfy ===
/**
 * The few Python string and list primitives the engine relies on, over ASCII:
 * `str.isspace`, `str.strip`, `str.lower`, `str.split()`, `" ".join`,
 * prefix slicing `s[:k]` (including negative `k`), `int(...)` truncation
 * of a float and decimal rendering of an integer.
 */
module Text {

  import opened Wrappers

  /** Python's `str.isspace` restricted to ASCII: tab, newline, vertical tab,
      form feed, carriage return, the four separators 0x1C-0x1F and space. */
  predicate IsSpace(c: char) {
    c == ' ' || (9 <= c as int <= 13) || (28 <= c as int <= 31)
  }

  predicate IsDigit(c: char) {
    '0' <= c <= '9'
  }

  predicate NoSpace(s: string) {
    forall i :: 0 <= i < |s| ==> !IsSpace(s[i])
  }

  predicate AllSpace(s: string) {
    forall i :: 0 <= i < |s| ==> IsSpace(s[i])
  }

  function Min(a: int, b: int): int { if a <= b then a else b }
  function Max(a: int, b: int): int { if a <= b then b else a }

  // ---------------------------------------------------------------- case

  function LowerChar(c: char): (d: char)
    ensures 'A' <= c <= 'Z' ==> 'a' <= d <= 'z' && d as int == c as int + 32
    ensures !('A' <= c <= 'Z') ==> d == c
  {
    if 'A' <= c <= 'Z' then (c as int + 32) as char else c
  }

  /** `str.lower()` on ASCII letters; every other character is kept. */
  function Lower(s: string): (r: string)
    ensures |r| == |s|
    ensures forall i :: 0 <= i < |s| ==> r[i] == LowerChar(s[i])
  {
    seq(|s|, i requires 0 <= i < |s| => LowerChar(s[i]))
  }

  // ---------------------------------------------------------------- strip

  function StripLeft(s: string): (r: string)
    ensures |r| <= |s| && r == s[|s| - |r|..]
    ensures r == [] || !IsSpace(r[0])
    ensures AllSpace(s[..|s| - |r|])
  {
    if |s| > 0 && IsSpace(s[0]) then
      var r := StripLeft(s[1..]);
      assert s[..|s| - |r|] == [s[0]] + s[1..][..|s[1..]| - |r|];
      r
    else s
  }

  function StripRight(s: string): (r: string)
    ensures |r| <= |s| && r == s[..|r|]
    ensures r == [] || !IsSpace(r[|r| - 1])
    ensures AllSpace(s[|r|..])
  {
    if |s| > 0 && IsSpace(s[|s| - 1]) then
      var r := StripRight(s[..|s| - 1]);
      assert s[|r|..] == s[..|s| - 1][|r|..] + [s[|s| - 1]];
      r
    else s
  }

  /** `str.strip()`: no whitespace at either end. */
  function Strip(s: string): (r: string)
    ensures |r| <= |s|
    ensures r == [] || (!IsSpace(r[0]) && !IsSpace(r[|r| - 1]))
  {
    StripRight(StripLeft(s))
  }

  /** Stripping removes only whitespace, and only at the two ends: the result
      is an infix of `s` with whitespace on both sides of it. */
  lemma StripRemovesOnlySpace(s: string)
    ensures exists i :: 0 <= i <= |s| - |Strip(s)| && Strip(s) == s[i..i + |Strip(s)|]
                        && AllSpace(s[..i]) && AllSpace(s[i + |Strip(s)|..])
  {
    var l := StripLeft(s);
    var r := StripRight(l);
    var i := |s| - |l|;
    assert Strip(s) == r;
    assert l == s[i..] && r == l[..|r|];
    assert r == s[i..i + |r|];
    assert AllSpace(s[..i]);
    assert s[i + |r|..] == l[|r|..];
    assert AllSpace(s[i + |r|..]);
  }

  lemma {:induction false} StripLeftSpacePrefix(pre: string, s: string)
    requires AllSpace(pre)
    ensures StripLeft(pre + s) == StripLeft(s)
  {
    if pre != [] {
      assert (pre + s)[0] == pre[0];
      assert (pre + s)[1..] == pre[1..] + s;
      StripLeftSpacePrefix(pre[1..], s);
    } else {
      assert pre + s == s;
    }
  }

  lemma {:induction false} StripRightSpaceSuffix(s: string, post: string)
    requires AllSpace(post)
    ensures StripRight(s + post) == StripRight(s)
  {
    if post != [] {
      assert (s + post)[|s + post| - 1] == post[|post| - 1];
      assert (s + post)[..|s + post| - 1] == s + post[..|post| - 1];
      StripRightSpaceSuffix(s, post[..|post| - 1]);
    } else {
      assert s + post == s;
    }
  }

  lemma {:induction false} StripLeftAppend(s: string, post: string)
    ensures StripLeft(s + post) == if AllSpace(s) then StripLeft(post) else StripLeft(s) + post
  {
    if s == [] {
      assert s + post == post;
    } else if IsSpace(s[0]) {
      assert (s + post)[1..] == s[1..] + post;
      StripLeftAppend(s[1..], post);
      assert StripLeft(s + post) == StripLeft(s[1..] + post);
      assert StripLeft(s) == StripLeft(s[1..]);
      assert AllSpace(s) <==> AllSpace(s[1..]) by {
        assert forall i :: 0 < i < |s| ==> s[i] == s[1..][i - 1];
      }
    } else {
      assert (s + post)[0] == s[0];
      assert !AllSpace(s);
    }
  }

  /** Surrounding whitespace never changes what `strip` returns. */
  lemma StripIgnoresSurroundingSpace(pre: string, s: string, post: string)
    requires AllSpace(pre) && AllSpace(post)
    ensures Strip(pre + s + post) == Strip(s)
  {
    assert pre + s + post == pre + (s + post);
    StripLeftSpacePrefix(pre, s + post);
    StripLeftAppend(s, post);
    if AllSpace(s) {
      StripRightSpaceSuffix([], StripLeft(post));
      assert [] + StripLeft(post) == StripLeft(post);
      assert StripLeft(s) == [] by { StripLeftAppend(s, []); assert s + [] == s; }
      assert AllSpace(StripLeft(post));
      assert StripLeft(post) == [];
    } else {
      StripRightSpaceSuffix(StripLeft(s), post);
    }
  }

  /** A string with no whitespace at either end is its own stripped form. */
  lemma StripUnchanged(s: string)
    requires s == [] || (!IsSpace(s[0]) && !IsSpace(s[|s| - 1]))
    ensures Strip(s) == s
  {
    assert StripLeft(s) == s;
    assert StripRight(s) == s;
  }

  /** `strip` is idempotent. */
  lemma StripIdempotent(s: string)
    ensures Strip(Strip(s)) == Strip(s)
  {
    StripUnchanged(Strip(s));
  }

  // ---------------------------------------------------------------- split / join

  /** Index of the first whitespace character of `s`, or `|s|` if none. */
  function SpaceIndex(s: string): (k: nat)
    ensures k <= |s| && NoSpace(s[..k])
    ensures k < |s| ==> IsSpace(s[k])
  {
    if s == [] || IsSpace(s[0]) then 0 else 1 + SpaceIndex(s[1..])
  }

  /** `str.split()` with no separator: the maximal runs of non-whitespace. */
  function Words(s: string): (ws: seq<string>)
    ensures forall i :: 0 <= i < |ws| ==> ws[i] != [] && NoSpace(ws[i])
    decreases |s|
  {
    if s == [] then []
    else if IsSpace(s[0]) then Words(s[1..])
    else
      var k := SpaceIndex(s);
      [s[..k]] + Words(s[k..])
  }

  /** The whitespace around and between the words of `s`: one run before each
      word and one after the last. The runs at either end may be empty; every
      run between two words is not. */
  function WordGaps(s: string): (g: seq<string>)
    ensures |g| == |Words(s)| + 1
    ensures forall i :: 0 <= i < |g| ==> AllSpace(g[i])
    ensures forall i :: 0 < i < |g| - 1 ==> g[i] != []
    ensures s != [] && IsSpace(s[0]) ==> g[0] != []
    decreases |s|
  {
    if s == [] then [[]]
    else if IsSpace(s[0]) then
      var g := WordGaps(s[1..]);
      [[s[0]] + g[0]] + g[1..]
    else
      var k := SpaceIndex(s);
      [[]] + WordGaps(s[k..])
  }

  /** The first gap, then each word followed by the next gap. */
  function Weave(gaps: seq<string>, words: seq<string>): string
    requires |gaps| == |words| + 1
    decreases |words|
  {
    if words == [] then gaps[0] else gaps[0] + words[0] + Weave(gaps[1..], words[1..])
  }

  /** `str.split()` loses only whitespace: the words, with the runs around and
      between them put back, are the text again. */
  lemma {:induction false} WordsRebuild(s: string)
    ensures Weave(WordGaps(s), Words(s)) == s
    decreases |s|
  {
    if s == [] {
    } else if IsSpace(s[0]) {
      WordsRebuild(s[1..]);
      WeaveLongerFirstGap(s[0], WordGaps(s[1..]), Words(s[1..]));
      assert s == [s[0]] + s[1..];
    } else {
      var k := SpaceIndex(s);
      WordsRebuild(s[k..]);
      assert s == s[..k] + s[k..];
    }
  }

  /** One more character in the first gap comes first in the woven text. */
  lemma WeaveLongerFirstGap(c: char, g: seq<string>, ws: seq<string>)
    requires |g| == |ws| + 1
    ensures Weave([[c] + g[0]] + g[1..], ws) == [c] + Weave(g, ws)
  {
    var h := [[c] + g[0]] + g[1..];
    assert h[0] == [c] + g[0] && h[1..] == g[1..];
  }

  /** `" ".join(ws)`. */
  function JoinSpace(ws: seq<string>): string {
    if ws == [] then ""
    else if |ws| == 1 then ws[0]
    else ws[0] + " " + JoinSpace(ws[1..])
  }

  /** A word followed by nothing or by whitespace splits off as the first word. */
  lemma FirstWord(w: string, rest: string)
    requires w != [] && NoSpace(w)
    requires rest == [] || IsSpace(rest[0])
    ensures Words(w + rest) == [w] + Words(rest)
  {
    var s := w + rest;
    SpaceIndexAfterWord(w, rest);
    assert s[0] == w[0];
    assert s[..|w|] == w;
    assert s[|w|..] == rest;
  }

  /** Splitting what `" ".join` built from words gives those words back. */
  lemma {:induction false} WordsOfJoin(ws: seq<string>)
    requires forall i :: 0 <= i < |ws| ==> ws[i] != [] && NoSpace(ws[i])
    ensures Words(JoinSpace(ws)) == ws
  {
    if |ws| == 1 {
      FirstWord(ws[0], "");
      assert ws[0] + "" == ws[0];
    } else if |ws| > 1 {
      var tail := JoinSpace(ws[1..]);
      assert JoinSpace(ws) == ws[0] + (" " + tail);
      FirstWord(ws[0], " " + tail);
      assert (" " + tail)[1..] == tail;
      WordsOfJoin(ws[1..]);
    }
  }

  lemma {:induction false} SpaceIndexAfterWord(w: string, rest: string)
    requires NoSpace(w)
    requires rest == [] || IsSpace(rest[0])
    ensures SpaceIndex(w + rest) == |w|
  {
    if w != [] {
      assert (w + rest)[1..] == w[1..] + rest;
      SpaceIndexAfterWord(w[1..], rest);
    } else {
      assert w + rest == rest;
    }
  }

  // ---------------------------------------------------------------- slicing

  /** Python's `s[:k]` for any integer `k`: a negative bound counts from the end. */
  function PyPrefix<T>(s: seq<T>, k: int): (r: seq<T>)
    ensures r <= s
    ensures |r| == if k >= 0 then Min(k, |s|) else Max(0, |s| + k)
  {
    if k >= 0 then s[..Min(k, |s|)] else s[..Max(0, |s| + k)]
  }

  // ---------------------------------------------------------------- numbers

  /** `int(x)` for a float: truncation toward zero. */
  function Truncate(x: real): (n: int)
    ensures x >= 0.0 ==> 0 <= n && n as real <= x < n as real + 1.0
    ensures x < 0.0 ==> n <= 0 && n as real - 1.0 < x <= n as real
  {
    if x >= 0.0 then x.Floor else -((-x).Floor)
  }

  function DigitChar(d: nat): (c: char)
    requires d < 10
    ensures IsDigit(c) && c as int - '0' as int == d
  {
    ('0' as int + d) as char
  }

  /** The value of a string of decimal digits, as `int(s)` reads it. */
  function DigitsValue(s: string): (n: nat)
    requires forall i :: 0 <= i < |s| ==> IsDigit(s[i])
  {
    if s == [] then 0
    else
      var d := s[|s| - 1];
      assert IsDigit(d);
      10 * DigitsValue(s[..|s| - 1]) + (d as int - '0' as int)
  }

  /** Decimal rendering of a natural number, without leading zeros. */
  function NatToString(n: nat): (s: string)
    ensures s != [] && forall i :: 0 <= i < |s| ==> IsDigit(s[i])
    ensures DigitsValue(s) == n
    ensures |s| > 1 ==> s[0] != '0'
  {
    if n < 10 then [DigitChar(n)]
    else
      var s := NatToString(n / 10) + [DigitChar(n % 10)];
      assert s[..|s| - 1] == NatToString(n / 10);
      s
  }

  /** `str(n)` for a Python `int`. */
  function IntToString(n: int): (s: string)
    ensures n >= 0 ==> s == NatToString(n)
    ensures n < 0 ==> s == "-" + NatToString(-n)
  {
    if n >= 0 then NatToString(n) else "-" + NatToString(-n)
  }

  // ---------------------------------------------------------------- search

  /** `pat` occurs in `s` starting at index `i`. */
  predicate OccursAt(s: string, pat: string, i: nat) {
    i + |pat| <= |s| && s[i..i + |pat|] == pat
  }

  /** `Find` returns the first occurrence at or after `from`. */
  lemma FindIsFirstOccurrence(s: string, pat: string, from: nat, p: nat)
    requires from <= p && OccursAt(s, pat, p)
    requires forall i :: from <= i < p ==> !OccursAt(s, pat, i)
    ensures Find(s, pat, from) == Some(p)
  {
  }

  /** The first index `i >= from` at which `pat` occurs in `s`. */
  function Find(s: string, pat: string, from: nat): (r: Option<nat>)
    ensures r.Some? ==> from <= r.value && OccursAt(s, pat, r.value)
    ensures r.Some? ==> forall j :: from <= j < r.value ==> !OccursAt(s, pat, j)
    ensures r.None? ==> forall j :: from <= j ==> !OccursAt(s, pat, j)
    decreases |s| - from
  {
    if from + |pat| > |s| then None
    else if OccursAt(s, pat, from) then Some(from)
    else Find(s, pat, from + 1)
  }
}

=== FILE: types.dfy ===
/**
 * The data model of the evaluation engine: parsed values, the closed set of
 * use cases, test cases, per-case results, the validator triple, the summary
 * and the exceptions the engine raises.
 */
module Types {

  import opened Wrappers
  import Text

  /** A value as YAML or JSON parsing produces it: Python's None, bool, int,
      float, str, list and dict (with string keys). */
  datatype Value =
    | Null
    | Bool(b: bool)
    | Int(i: int)
    | Float(f: real)
    | Str(s: string)
    | List(items: seq<Value>)
    | Dict(entries: map<string, Value>)

  /** The name of a value's Python type, as error messages print it. */
  function TypeName(v: Value): string {
    match v
    case Null => "NoneType"
    case Bool(_) => "bool"
    case Int(_) => "int"
    case Float(_) => "float"
    case Str(_) => "str"
    case List(_) => "list"
    case Dict(_) => "dict"
  }

  /** `repr(v)` for the scalar values; floats and containers are rendered as a placeholder. */
  function Repr(v: Value): string {
    match v
    case Null => "None"
    case Bool(b) => if b then "True" else "False"
    case Int(i) => Text.IntToString(i)
    case Str(s) => "'" + s + "'"
    case Float(_) => "<float>"
    case List(_) => "[...]"
    case Dict(_) => "{...}"
  }

  // ---------------------------------------------------------------- exceptions

  datatype ExceptionKind =
    | ValueError | RuntimeError | FileNotFoundError | KeyError
    | TypeError | AttributeError | IndexError

  /** A raised Python exception; `message` is what `str(e)` gives. */
  datatype Exception = Exception(kind: ExceptionKind, message: string)

  // ---------------------------------------------------------------- use cases

  /** The task categories; `UseCaseValue(u)` below is the string each member stands for. */
  datatype UseCase =
    | Qa | Summarization | Codegen | FunctionCall | Rag | Extraction | Classification
    | Sentiment | Translation | Math | Conversation | FactCheck | Story | TopicTagging

  /** The enum member's value. */
  function UseCaseValue(u: UseCase): string {
    match u
    case Qa => "qa"
    case Summarization => "summarization"
    case Codegen => "codegen"
    case FunctionCall => "function_call"
    case Rag => "rag"
    case Extraction => "extraction"
    case Classification => "classification"
    case Sentiment => "sentiment"
    case Translation => "translation"
    case Math => "math"
    case Conversation => "conversation"
    case FactCheck => "fact_check"
    case Story => "story"
    case TopicTagging => "topic_tagging"
  }

  /** The enum member's name, as `UseCase.NAME` prints in messages. */
  function UseCaseName(u: UseCase): string {
    match u
    case Qa => "QA"
    case Summarization => "SUMMARIZATION"
    case Codegen => "CODEGEN"
    case FunctionCall => "FUNCTION_CALL"
    case Rag => "RAG"
    case Extraction => "EXTRACTION"
    case Classification => "CLASSIFICATION"
    case Sentiment => "SENTIMENT"
    case Translation => "TRANSLATION"
    case Math => "MATH"
    case Conversation => "CONVERSATION"
    case FactCheck => "FACT_CHECK"
    case Story => "STORY"
    case TopicTagging => "TOPIC_TAGGING"
  }

  const UseCaseValues: set<string> :=
    {"qa", "summarization", "codegen", "function_call", "rag", "extraction", "classification",
     "sentiment", "translation", "math", "conversation", "fact_check", "story", "topic_tagging"}

  /** `UseCase(s)` for a string: the member whose value is `s`, if any. */
  function ParseUseCase(s: string): (r: Option<UseCase>)
    ensures r.Some? <==> s in UseCaseValues
    ensures r.Some? ==> UseCaseValue(r.value) == s
  {
    if s == "qa" then Some(Qa)
    else if s == "summarization" then Some(Summarization)
    else if s == "codegen" then Some(Codegen)
    else if s == "function_call" then Some(FunctionCall)
    else if s == "rag" then Some(Rag)
    else if s == "extraction" then Some(Extraction)
    else if s == "classification" then Some(Classification)
    else if s == "sentiment" then Some(Sentiment)
    else if s == "translation" then Some(Translation)
    else if s == "math" then Some(Math)
    else if s == "conversation" then Some(Conversation)
    else if s == "fact_check" then Some(FactCheck)
    else if s == "story" then Some(Story)
    else if s == "topic_tagging" then Some(TopicTagging)
    else None
  }

  /** Every member is found again from its value, so values are pairwise distinct
      and there are exactly fourteen of them. */
  lemma UseCaseValueRoundTrip(u: UseCase)
    ensures ParseUseCase(UseCaseValue(u)) == Some(u)
    ensures UseCaseValue(u) in UseCaseValues
  {
  }

  lemma UseCaseValuesDistinct(u: UseCase, v: UseCase)
    ensures UseCaseValue(u) == UseCaseValue(v) ==> u == v
  {
    UseCaseValueRoundTrip(u);
    UseCaseValueRoundTrip(v);
  }

  /** `UseCase(v)` for any parsed value: only one of the fourteen strings names a member. */
  function UseCaseOf(v: Value): (r: Result<UseCase, Exception>)
    ensures r.Success? <==> v.Str? && v.s in UseCaseValues
    ensures r.Success? ==> UseCaseValue(r.value) == v.s
    ensures r.Failure? ==> r.error == Exception(ValueError, Repr(v) + " is not a valid UseCase")
  {
    if v.Str? && ParseUseCase(v.s).Some? then Success(ParseUseCase(v.s).value)
    else Failure(Exception(ValueError, Repr(v) + " is not a valid UseCase"))
  }

  // ---------------------------------------------------------------- records

  /** One evaluation unit. Only `useCase` is checked when a test case is built;
      the other fields hold whatever was parsed. */
  datatype TestCase = TestCase(
    prompt: Value,
    expected: Value,
    useCase: UseCase,
    id: Value := Null,
    metadata: Value := Dict(map[]))

  /** The declared shape of `expected`: a string, a mapping, or a list of strings. */
  predicate DeclaredExpected(v: Value) {
    v.Str? || v.Dict? || (v.List? && forall i :: 0 <= i < |v.items| ==> v.items[i].Str?)
  }

  /** The `(score, passed, feedback)` triple a validator returns. */
  datatype Verdict = Verdict(score: real, passed: bool, feedback: string)

  /** The outcome of one test case. */
  datatype EvalResult = EvalResult(
    prompt: Value,
    expected: Value,
    actual: string,
    useCase: UseCase,
    score: real,
    passed: bool,
    feedback: Option<string> := None,
    metadata: Value := Dict(map[]))

  /** Aggregate statistics over the results of one use case. */
  datatype EvalSummary = EvalSummary(
    results: seq<EvalResult>,
    avgScore: real,
    passRate: real,
    useCase: UseCase)

  /** The optional fields default to None and an empty mapping. */
  lemma RecordDefaults(prompt: Value, expected: Value, u: UseCase, actual: string, score: real, passed: bool)
    ensures TestCase(prompt, expected, u).id == Null
    ensures TestCase(prompt, expected, u).metadata == Dict(map[])
    ensures EvalResult(prompt, expected, actual, u, score, passed).feedback == None
    ensures EvalResult(prompt, expected, actual, u, score, passed).metadata == Dict(map[])
  {
  }
}

=== FILE: utils.dfy ===
/** `short`: clip a string for display, marking the cut with "...". */
module Utils {

  import opened Text

  /** `short(s, max_len=80)`: the string itself when it fits, otherwise its
      first `max_len - 3` characters (a Python slice, so a negative bound counts
      from the end) followed by "...". */
  function Short(s: string, maxLen: int := 80): (r: string)
    ensures |s| <= maxLen ==> r == s
    ensures |s| > maxLen ==> |r| >= 3 && r[|r| - 3..] == "..." && r[..|r| - 3] <= s
    ensures |s| > maxLen && maxLen >= 3 ==> |r| == maxLen && r[..maxLen - 3] == s[..maxLen - 3]
    ensures maxLen >= 3 ==> |r| <= maxLen
    ensures |s| > maxLen && maxLen < 3 ==> |r| == Max(0, |s| - (3 - maxLen)) + 3
  {
    if |s| <= maxLen then s else PyPrefix(s, maxLen - 3) + "..."
  }

  /** With a limit of at least 3, clipping twice is clipping once. */
  lemma ShortIdempotent(s: string, maxLen: int)
    requires maxLen >= 3
    ensures Short(Short(s, maxLen), maxLen) == Short(s, maxLen)
  {
  }

  /** Below 3 the marker alone overruns the limit: with `max_len = 2`, "abc"
      becomes "ab..." (five characters), and clipping that again gives
      "ab....." — longer than the limit and not idempotent. */
  lemma ShortBelowThree()
    ensures Short("abc", 2) == "ab..."
    ensures |Short("abc", 2)| > 2
    ensures Short(Short("abc", 2), 2) == "ab....." != Short("abc", 2)
  {
    assert PyPrefix("abc", -1) == "ab";
    assert PyPrefix("ab...", -1) == "ab..";
  }
}

=== FILE: wrappers.dfy ===
/** Optional values and results that may carry a raised exception. */
module Wrappers {

  datatype Option<+T> = None | Some(value: T)

  /** `Failure(e)` stands for a Python call that raised `e` instead of returning. */
  datatype Result<+T, +E> = Success(value: T) | Failure(error: E)
}
